=== FILE: README.md ===
# Lohai rules engine, modelled in Dafny

This project models the rules engine of Lohai, a four-player trick-taking card
game. It covers the card value types and the deck (`lohai/game/deck.py`) and
the trick and round state machine (`lohai/game/round.py`).

- **Cards and deck.** The two enums, card equality and ordering, point value,
  the special cards, and the 52-card new deck. That deck holds eleven number
  values (there is no ten) in four suits, plus two of each special kind.
  Shuffling and drawing from the front are modelled too.
- **Tricks.** One trick holds the four field slots, the lead suit, the first
  and current player, and the most recent Taker or Giver. The model covers
  trick completion, the ranking key (trump +200, lead +100) and the choice of
  winner.
- **Rounds.** The legality checks of a play, placing a card on the field, and
  the chains of cards replaced from the deck. Resolving a trick, the Giver,
  Mover and Shaker actions, trick transfer, and the dealing of a new round are
  modelled as well.

The model is functional. Every state is an immutable datatype, and every
operation is a pure function or method that returns either the new state or
the error the engine would raise (`Results.Result`).

- `Hand` is called `Trick` here.
- Exceptions become `Error` values: `InvalidCard`, `NotYourTurn`,
  `InvalidMove`, `EmptyDeck`, `InvalidValue`, `EmptySlot` and `Inconsistent`.
  `EmptyDeck` stands for the `IndexError` of `list.pop(0)`. `EmptySlot` stands
  for the `AttributeError` raised on an empty field slot. `Inconsistent`
  stands for the generic exception raised when the recorded card is neither a
  Taker nor a Giver.
- Replacement chains recurse through `PlaceCard` and `PlayFromDeck`, ordered by
  the size of the deck.
- The engine's quirks are modelled as written:
  - seat 0 is never credited with a trick (`if winner:`);
  - a replaced Mover or Shaker passes the turn twice;
  - `handle_shaker` and `handle_mover` neither check the turn nor resolve the
    trick;
  - replacement cards skip the hand and suit checks;
  - the trump suit is the trump card's suit, which is `none` for a special
    card.
- Line 69 of `round.py` is Python 2 code. `len(filter(None, field))` is read as
  the number of filled slots.

Files:

- `results.dfy` holds the errors, `Option`, `Result` and `Check`.
- `cards.dfy` holds `Suit`, `CardValue`, `Card`, equality, ordering, point
  value, and list membership and removal by card equality.
- `decks.dfy` holds the new deck, the shuffle and drawing.
- `tricks.dfy` holds the trick (the `Hand` class): completion, keys, the
  winner, and the Giver check.
- `rounds.dfy` holds the round, every move of the engine, and dealing.
- `scenarios.dfy` restates the repository's test scenarios on the model.

## Model

| member | source | states |
|---|---|---|
| Cards.SuitCode | lohai/game/deck.py:8-13 | Each suit has the integer of the enum. The integer is 4 exactly for `none`, and every other suit is below 4. |
| Cards.SuitOfCode | lohai/game/deck.py:8-13 | An integer names a suit exactly when it is between 0 and 4, and that suit has the integer. |
| Cards.ValueOfCode | lohai/game/deck.py:29-44 | An integer names a card value exactly when it is between 0 and 14, and that value has the integer. |
| Cards.NumberValuesListed | lohai/game/deck.py:46-49 | The number values are two through king in order, with no ten. |
| Cards.NewCard | lohai/game/deck.py:60-67 | `Card(value, suit)` succeeds exactly when both arguments are enum members, given here by their integers (0 to 14 and 0 to 4). The card then carries them and is not special. Otherwise it raises. |
| Cards.NewSpecialCard | lohai/game/deck.py:129-137 | `SpecialCard` succeeds exactly when the suit is `none` and the value is valid. The card is special and suitless. Any other suit raises. |
| Cards.SameIsEquivalence | lohai/game/deck.py:69-72 | Card equality is reflexive, symmetric and transitive. It holds exactly when value and suit agree, whatever the special flag. |
| Cards.EqualsMeans | lohai/game/deck.py:69-72 | A card never equals None, and equals a present card exactly when value and suit agree. |
| Cards.LessIsStrictTotalOrder | lohai/game/deck.py:74-79 | `<` is irreflexive and transitive. Exactly one of `a < b`, `a == b` and `b < a` holds. |
| Cards.LessIsLexicographic | lohai/game/deck.py:74-79 | `a < b` holds exactly when the suit code of `a` is lower, or the suits are equal and its value code is lower. |
| Cards.SpecialSortsLast | lohai/game/deck.py:74-79 | A suitless card, such as every special card, sorts after every suited card. |
| Cards.GreaterIsConverse | lohai/game/deck.py:56-79 | `>`, derived by `total_ordering`, holds exactly when the converse `<` does. |
| Cards.PointValueRange | lohai/game/deck.py:89-91 | Point values run from 100 to 450 in steps of 25. They rise strictly with the card value and are equal exactly when the values are equal, whatever the suit or special flag. |
| Cards.OrderingExample | tests/game/test_deck.py:10-24 | The six cards of the ordering test are pairwise ordered by `<` and `>` as listed, with the Shaker last. |
| Cards.FirstSame | lohai/game/round.py:234-239 | The position `list.remove` finds is the first card equal to the given one. |
| Cards.RemoveFirst | lohai/game/round.py:234-239 | Removing a held card drops exactly one card, the first equal one, and keeps every other card. |
| Decks.Row | lohai/game/deck.py:152-153 | One row of the product has one card per suit. |
| Decks.Pairs | lohai/game/deck.py:155-158 | Two special cards are appended per special value. |
| Decks.RowCopies | lohai/game/deck.py:152-153 | A row holds a plain card of its value once per occurrence of the card's suit, and nothing else. |
| Decks.ProductCopies | lohai/game/deck.py:152-153 | `starmap(Card, product(values, suits))` holds each plain card as often as its value occurs times as often as its suit occurs. It holds no special card. |
| Decks.ProductLength | lohai/game/deck.py:152-153 | The product has `|values| * |suits|` cards. |
| Decks.PairsCopies | lohai/game/deck.py:155-158 | The appended special cards hold each suitless special card twice per occurrence of its value, and nothing else. |
| Decks.SuitsOnce | lohai/game/deck.py:15-25 | `all_suits` lists each real suit once and omits `none`. |
| Decks.NumberValuesOnce | lohai/game/deck.py:46-49 | `number_values` lists each ranked value (codes 2 to 12) once and nothing else. |
| Decks.NumberValuesAreRanked | lohai/game/deck.py:46-49 | A value is a number value exactly when its code is between 2 and 12. |
| Decks.SpecialValuesOnce | lohai/game/deck.py:51-53 | `special_values` lists each of Taker, Giver, Mover and Shaker once. |
| Decks.DeckCopies | lohai/game/deck.py:150-158 | A deck built from number values, suits and special kinds that each occur once holds one of each plain number card in a real suit and two of each special card. |
| Decks.NewDeckComposition | lohai/game/deck.py:150-158 | The collected new deck has 52 cards and holds every card exactly as often as the composition rule says. |
| Decks.Shuffle | lohai/game/deck.py:160 | The Fisher-Yates pass of `random.shuffle`, driven by the given random draws, yields a permutation of its input. |
| Decks.ShuffleNewDeck | lohai/game/deck.py:150-161 | `shuffle_new_deck` yields 52 cards: each number card in each real suit once and two of each special kind. |
| Decks.Draw | lohai/game/deck.py:163-164 | `draw_card` succeeds exactly on a non-empty deck. It returns the front card and leaves the rest in order. An empty deck raises. |
| Decks.DrawTimes | lohai/game/deck.py:163-164 | `n` draws succeed exactly when the deck has at least `n` cards. The drawn cards followed by the rest are the original deck. |
| Decks.NewDeckSize | tests/game/test_deck.py:27-29 | Every deck with the new deck's composition has 52 cards. |
| Decks.FiftyTwoDraws | tests/game/test_deck.py:32-38 | From a new deck, `n` draws succeed exactly when `n <= 52`. The 52nd empties the deck. |
| Tricks.FilledCount | lohai/game/round.py:69 | The number of filled slots never exceeds the number of slots. |
| Tricks.FilledCountMeans | lohai/game/round.py:69 | The count is zero exactly when no slot is filled, and equals the field size exactly when every slot is filled. |
| Tricks.FilledCountUpdate | lohai/game/round.py:58 | Writing one slot changes the count by the filled status of the new slot minus that of the old slot. |
| Tricks.TwoFilled | lohai/game/round.py:69 | Two distinct filled slots make a count of at least two. |
| Tricks.HandCompleteMeansNothingBlocks | lohai/game/round.py:85-88 | A trick is complete exactly when no slot is empty and none holds a suitless Shaker or Mover. Membership uses card equality, so a suited Mover does not block. |
| Tricks.KeyIsTierThenValue | lohai/game/round.py:157-164 | Keys order cards by tier first (trump, then lead suit, then the rest) and by value second. |
| Tricks.LastMax | lohai/game/round.py:166 | The element a stable ascending sort puts last has a maximal key. Every later position has a strictly smaller key. |
| Tricks.IndexOf | lohai/game/round.py:167 | `field.index(c)` is the first slot equal to `c`. |
| Tricks.TieBreakWinnerUnique | lohai/game/round.py:166-167 | The seat the ranking names is unique: the first slot equal to the card in the last slot of maximal key. |
| Tricks.LastOfMaxKeyUnique | lohai/game/round.py:166 | Only one slot has a maximal key with only smaller keys after it, so a stable sort puts exactly one slot's card last. |
| Tricks.TieGoesToLaterSeat | lohai/game/round.py:166-167 | On a field of pairwise different cards, the ranking names exactly the last seat with the maximal key. A tie goes to the later seat. |
| Tricks.RankedWinner | lohai/game/round.py:156-168 | With no Taker or Giver played, the winner is the seat the ranking names: the first slot equal to the card a stable sort by key puts last. That card's key is maximal. |
| Tricks.WinnerIsLastOfMaxKey | lohai/game/round.py:144-168 | With nothing recorded, the last slot of maximal key wins when no earlier slot holds an equal card. |
| Tricks.ProcessTrickWinner | lohai/game/round.py:144-168 | A recorded Taker's seat wins outright. A recorded Giver gives no winner yet. Without either, the seat the ranking names wins, including its tie-break, and its key is maximal. Any other recorded card raises, and only then does the call fail. |
| Tricks.VerifyGiverOk | lohai/game/round.py:126-142 | The Giver check passes exactly when the trick is complete, the most recent Taker/Giver is a Giver played by this player, and the recipient is someone else. Every refusal is `InvalidMove`. |
| Tricks.NewTrick | lohai/game/round.py:29-34 | A new trick has one empty slot per seat, so it is not complete. It has no lead suit and nothing recorded, and the given seat leads and plays first. |
| Rounds.RoundPointValue | lohai/game/round.py:186 | The round's stake is a multiple of 25 between 100 and 450. The trump card's value can be read back from it. |
| Rounds.NewRound | lohai/game/round.py:182-197 | A new round keeps the given deck, hands and trump card, and its trump suit is the trump card's suit. No seat has won a trick, and seat 0 leads an empty trick with nothing recorded. |
| Rounds.TotalAfterUpdate | lohai/game/round.py:283 | Setting one seat's count changes the total by the difference. |
| Rounds.Credit | lohai/game/round.py:277-284 | Crediting a seat raises its count by one, leaves the other counts alone and raises the total by one. That seat then leads a fresh trick: it is the first and current player, the slots are empty, and there is no lead suit and no recorded Taker or Giver. The deck, hands and trump card are kept. |
| Rounds.PlayerHasSuit | lohai/game/round.py:229-232 | `player_has_suit` holds exactly when some card in the seat's hand has that suit. |
| Rounds.RemoveCardFromHand | lohai/game/round.py:234-239 | Removal succeeds exactly when the seat holds an equal card, and removes exactly one such card. The other seats and the rest of the round are unchanged. A card not held raises `InvalidCard`. |
| Rounds.IsValidPlay | lohai/game/round.py:36-47 | A play is valid exactly when the card is held and it follows suit. Following suit means the card is special, or no lead suit is set, or the card is of the lead suit, or the seat has no lead-suit card. Any failure is `InvalidCard`. |
| Rounds.MinOf | lohai/game/round.py:266 | The minimum is at most every count and is one of them. |
| Rounds.MaxOf | lohai/game/round.py:267 | The maximum is at least every count and is one of them. |
| Rounds.CanMoverMeans | lohai/game/round.py:261-269 | A seat may use a Mover exactly when some seat has fewer tricks and some seat has more. |
| Rounds.TransferTrick | lohai/game/round.py:298-304 | The transfer succeeds exactly when the source has a trick; otherwise it raises `InvalidMove`. One trick moves from source to destination, no other seat changes, and the total is preserved. |
| Rounds.AfterPlaceFrame | lohai/game/round.py:77-83 | The bookkeeping after a placement leaves the field, deck, hands and counts alone and passes the turn to the next seat. |
| Rounds.PlaceCard | lohai/game/round.py:57-83 | Placing a card changes only the seat's slot, an unset lead suit, the recorded Taker/Giver (only to one of this seat), the turn, and the deck by draws from its front. The chain stops with the slot filled. A Mover stays only for a seat that may use it, and a Shaker stays only when another slot is filled. Only a draw from an empty deck fails. |
| Rounds.PlayFromDeck | lohai/game/round.py:54-55 | A replacement from an empty deck fails with `EmptyDeck`, and `EmptyDeck` is its only error. A success consumes at least one card from the front, places it under the same frame, and stops as `PlaceCard` does. |
| Rounds.WaitingFramed | lohai/game/round.py:58-63 | A Mover or Shaker left waiting changes only its own slot and is settled there. |
| Rounds.OrdinaryFramed | lohai/game/round.py:77-83 | An ordinary card placed and booked stays within the frame of a placement and is settled. |
| Rounds.ReplacedFramed | lohai/game/round.py:65-71 | The bookkeeping of a replaced Mover or Shaker keeps the frame and settledness its replacement established. |
| Rounds.DrawnFramed | lohai/game/round.py:54-55 | Placing the top card of a deck stays within the frame of the round it was drawn from, and the deck shrinks. |
| Rounds.PlayToTrick | lohai/game/round.py:90-102 | The checks run in the order turn (`NotYourTurn`), empty slot (`InvalidMove`), hand and suit (`InvalidCard`). A legal ordinary play succeeds, and a legal special play fails only on an empty deck. A success removes one equal card from the seat's hand only and leaves the seat settled. It leaves the counts, the trump card, the first player, a lead suit already set and the other slots alone, and only draws from the front of the deck. The recorded Taker or Giver is either kept or is now the playing seat's. |
| Rounds.OrdinaryPlay | lohai/game/round.py:57-102 | A successful play of a card other than a Mover or Shaker does the following. It puts the card in the seat's slot and takes one equal card from that hand. It sets an unset lead suit from a non-special card and records a Taker or Giver. It passes the turn to the next seat and leaves the deck and counts alone. |
| Rounds.ResolveTrick | lohai/game/round.py:280-284 | Resolving a complete trick credits the rightful winner, who then leads. The rightful winner is the recorded Taker's seat, or else the seat the ranking names including its tie-break. If that winner is seat 0, or a Giver is pending, the round is left as it was. It fails exactly when the recorded card is neither a Taker nor a Giver. Seat 0's count never changes. |
| Rounds.PlayCard | lohai/game/round.py:271-275 | `Round.play_card` fails exactly as the trick play fails, or with `Inconsistent` from resolving. An incomplete trick is returned as played. A complete trick is resolved: the rightful winner is credited unless it is seat 0, a pending Giver changes nothing, and the call fails exactly when the recorded card is neither a Taker nor a Giver. |
| Rounds.HandleMover | lohai/game/round.py:104-111 | An empty slot raises `EmptySlot`. A slot without a Mover, or a source without tricks, raises `InvalidMove`. Once these checks pass, only an empty deck can make it fail, and there is no turn check. A success transfers one trick, preserves the total and replaces the Mover from the deck. It leaves other slots, the hands, the trump card, the first player and a lead suit already set alone, and only draws from the front of the deck. The recorded Taker or Giver is either kept or is now the player's. |
| Rounds.HandleShaker | lohai/game/round.py:113-124 | An empty slot raises `EmptySlot`. A slot without a Shaker, or an empty victim slot, raises `InvalidMove`. Once these checks pass, only an empty deck can make it fail, and there is no turn check. A success moves the victim's card to the player's slot and refills the victim's slot from the deck. It leaves the counts, the hands, the trump card, the first player, a lead suit already set and the other slots alone, and only draws from the front of the deck. The recorded Taker or Giver is either kept or is now the victim's. |
| Rounds.HandleGiver | lohai/game/round.py:289-293 | `handle_giver` succeeds exactly when the Giver check passes, and then credits the recipient, who leads. Any refusal is `InvalidMove`. |
| Rounds.DealRowKeepsCards | lohai/game/round.py:253-255 | A pass moves cards from the pile to the hands without losing or adding any. |
| Rounds.PileSplit | lohai/game/round.py:255 | The pile is its top four cards followed by the rest. |
| Rounds.Dealt | lohai/game/round.py:250-255 | After `n` passes every seat holds `n` cards. |
| Rounds.DealtGrows | lohai/game/round.py:253-255 | Each pass deals cards `4n` to `4n+3` of the deck, one to each seat in order. |
| Rounds.DealtKeepsCards | lohai/game/round.py:250-255 | After any number of passes, the hands and the rest of the deck hold exactly the deck's cards. |
| Rounds.DealHands | lohai/game/round.py:250-255 | Nine passes succeed exactly on at least 36 cards. Card `k` of seat `q` is then card `4k + q` of the deck, and the pile is what follows card 36. |
| Rounds.DealNewRound | lohai/game/round.py:250-259 | Dealing succeeds exactly on at least 37 cards. It yields 9 cards per seat dealt round robin and the 37th card as trump. The remaining deck is what follows, no tricks are won, and seat 0 leads. The hands, the trump card and the remaining deck are exactly the dealt deck. |
| Rounds.StartNewRound | lohai/game/round.py:246-259 | A new round has nine cards per seat and a 15-card deck. The hands, trump card and deck together are exactly a new deck. The trump suit is the trump card's suit, no tricks are won, and seat 0 leads. |
| Rounds.MoverWaits | lohai/game/round.py:60-63 | A Mover played by a seat strictly in the middle of the counts stays on the field, and the turn does not pass. |
| Rounds.OrdinaryReplacement | lohai/game/round.py:54-58 | An ordinary top card is placed without the hand, turn and suit checks, with the usual bookkeeping. |
| Rounds.MoverReplacedAdvancesTwice | lohai/game/round.py:60-83 | Any other Mover is replaced by an ordinary top card, the deck loses that card, and the turn passes twice. |
| Rounds.ReplacementOutcome | lohai/game/round.py:77-83 | A replacement followed by the replaced card's own bookkeeping leaves the top card in the slot and the hands alone, and passes the turn twice. |
| Rounds.ReplacedMover | lohai/game/round.py:60-66 | The Mover's own bookkeeping follows its replacement. |
| Rounds.ReplacedShaker | lohai/game/round.py:68-71 | The Shaker's own bookkeeping follows its replacement. |
| Rounds.ShakerWaits | lohai/game/round.py:68-75 | A Shaker played while another slot is filled stays on the field, and the turn does not pass. |
| Rounds.ShakerFirstReplaced | lohai/game/round.py:68-71 | A Shaker played onto an otherwise empty field is replaced by an ordinary top card, and the turn passes twice. |
| Rounds.AloneOnField | lohai/game/round.py:69 | A card in the only slot that may be filled leaves at most one slot filled. |
| Rounds.MoverResolved | lohai/game/round.py:104-111 | Whoever's turn it is, `handle_mover` with an ordinary top card moves one trick from source to destination. The Mover's slot then holds the top card, the deck loses it, and the turn passes once. |
| Rounds.ShakerResolved | lohai/game/round.py:113-124 | Whoever's turn it is, `handle_shaker` with an ordinary top card moves the victim's card to the Shaker's slot. The victim's slot then holds the top card, the deck loses it, the counts and hands stay, and the turn passes once. A seat that shakes itself has its Shaker replaced by the top card. |
| Rounds.ShakeBack | lohai/game/round.py:113-124 | When the victim's replacement is a Shaker, it waits. The victim can then shake the stolen card back, and the first Shaker's seat draws the next card. |
| Scenarios.HighestLeadSuitWins | tests/game/test_round.py:113-123 | Three spades and a higher club under a heart trump: the highest spade, seat 2, wins. |
| Scenarios.HighestTrumpWins | tests/game/test_round.py:169-181 | A four of hearts, the trump, beats the seven of spades led. |
| Scenarios.LeadSuitWinnerCredited | tests/game/test_round.py:113-123 | On any round with a heart trump holding that trick, resolving it credits seat 2 alone, which leads next. |
| Scenarios.TrumpWinnerCredited | tests/game/test_round.py:169-181 | On any round with a heart trump holding that trick, resolving it credits seat 3 alone, which leads next. |
| Scenarios.LastTakerWins | tests/game/test_round.py:125-139 | The later of two Takers, seat 3, wins and is credited, and leads the next trick. Seat 0 may then not play. |
| Scenarios.LastGiverWins | tests/game/test_round.py:144-165 | A later Giver makes the trick wait. Its player may not keep the trick but may give it to seat 1, who is credited and leads next. |
| Scenarios.ShakerStealsCard | tests/game/test_round.py:198-225 | Seat 2's Shaker waits. It may not steal from the empty seat 3, and seat 1 has no Shaker. Stealing seat 1's card gives the expected field. |
| Scenarios.ShakerFirst | tests/game/test_round.py:227-238 | A Shaker led onto an empty field draws a Shaker, which draws the five of hearts. The field and the emptied deck are as expected, and the turn passes three times. |
| Scenarios.InvalidCounts | tests/game/test_round.py:265-268 | The high, low and tied counts leave seat 3 unable to use a Mover. |
| Scenarios.MoverWithInvalidCounts | tests/game/test_round.py:272-288 | Under those counts seat 3's Mover is replaced by the jack of clubs at once, so `handle_mover` refuses. |
| Scenarios.MoverReplacedAtLastSeat | tests/game/test_round.py:279-288 | A Mover that seat 3 may not use leaves the jack of clubs in its slot, and no Mover is left to resolve. |
| Scenarios.MoverWaitsInMiddle | tests/game/test_round.py:290-295 | With counts 0, 2, 2, 1, seat 3's Mover waits on the field. |
| Scenarios.MoverSourceEmpty | tests/game/test_round.py:296-309 | A seat without tricks cannot be the source. Moving seat 3's own trick to seat 0 gives the counts 1, 2, 2, 0 and puts the jack of clubs in seat 3's slot. |

## Left out

- `lohai/events.py`: event notifications are a logging stub and are modelled as doing nothing.
- `lohai/round.py`, `lohai/deck.py` and `lohai_tests.py` are an earlier variant of the engine with different rules. They are not part of this model.
- `lohai/exception.py` is not part of this model. The error names come from their use in `round.py`.
- `random.shuffle`: the random draws are a parameter of `Decks.Shuffle`. The model does not say how they are produced.
- `copy.deepcopy` in `get_hand_for_player` has no counterpart, because values are immutable here.
- `__str__`, `__repr__`, `__getstate__`/`__setstate__`, and the red/black suit helpers are presentation and serialisation only.
- Lo/Hai scoring, whole games and three-player rules are not implemented in the engine.
- Seats are 0 to 3. Python's negative or out-of-range indices are not modelled.
- A draw from an empty deck in the middle of a replacement chain leaves Python's state partly mutated. The model returns `EmptyDeck` and drops that partial state.
- The generic exception of `process_trick_winner` (round.py:154) is raised inside `Round.play_card` after `Hand.play_card` has already changed the trick. The model returns `Inconsistent` and drops that change too. Every other failure happens before any mutation.
- `Round.handle_shaker` and `Round.handle_mover` are one-line forwards to the trick. They are modelled by `Rounds.HandleShaker` and `Rounds.HandleMover` directly.
- The `cur_player` setter (round.py:204-207) is a test hook that overwrites the trick's current player. It is not modelled as an operation. The tests that call it (tests/game/test_round.py:233, 249, 276 and 291) are stated on rounds whose current player is fixed by a precondition instead, such as `r.current.curPlayer == 2` in `Scenarios.ShakerStealsCard`.
- The test at tests/game/test_round.py:155 and :158 calls `handle_giver` with one argument, but the method takes the player and the recipient. `Scenarios.LastGiverWins` passes player 3 explicitly.
- The scenarios of tests/game/test_round.py:10-94 rely on concrete fixture hands. They are covered by the general contracts of `Rounds.PlayToTrick` and `Rounds.IsValidPlay` rather than replayed.
- The special-card scenarios are stated on symbolic rounds whose relevant fields are fixed, rather than on the full fixture round. The trick-ranking scenarios take a trick fixed to the test's concrete cards and lead suit, and their credit is stated again on a symbolic round holding those cards.
- Cards.NewCard: the engine's constructor takes enum members and tests them with `in CardValue` and `in Suit`. The model passes the members by their integers. A raw Python integer is refused or accepted depending on the Python version, and even where accepted it would fail the identity tests `is CardValue.mover`, `is CardValue.shaker` and `is CardValue.taker`. That behaviour is not modelled.
- Rounds.PlaceCard: for arbitrary chains, the contract bounds what may change (the frame) and where the chain stops, rather than giving the exact result. Exact results for single replacements are stated by `Rounds.MoverWaits`, `Rounds.ShakerWaits`, `Rounds.MoverReplacedAdvancesTwice` and `Rounds.ShakerFirstReplaced`.
- Rounds.HandleMover: the replacement chain after the transfer is bounded by the frame of `Rounds.PlaceCard`, not given exactly. The contract states that frame: the deck is a suffix of the original; the trump card, the first player and a lead suit already set are kept; and the recorded Taker or Giver is either unchanged or belongs to the acting seat.
- Rounds.HandleShaker: the same holds for the victim's replacement chain.
- Rounds.PlayFromDeck: like `Rounds.PlaceCard`, it bounds a chain by its frame rather than giving its result. So a non-empty deck may still fail, when the chain draws every card, and the contract does not say exactly when. A Shaker drawn onto an empty field is one such case, since its own replacement finds the deck empty. The single-card outcome is stated by `Rounds.OrdinaryReplacement`.
- Decks.Shuffle: states that the result is a permutation of the input, not which arrangement the given draws produce.

=== FILE: cards.dfy ===
/** Card value types of the Lohai rules engine: suits, card values, cards and
    special cards, their equality, ordering and point value, and the list
    operations the engine performs with card equality (`in`, `remove`). */
module Cards {
  import opened Results

  /** The four real suits and `none`, the suit of special cards, in enum order. */
  datatype Suit = Spade | Heart | Club | Diamond | NoSuit

  /** The integer behind each suit of the enum. */
  function SuitCode(s: Suit): (n: nat)
    ensures n <= 4
    ensures n == 4 <==> s == NoSuit
  {
    match s
    case Spade => 0
    case Heart => 1
    case Club => 2
    case Diamond => 3
    case NoSuit => 4
  }

  /** The card values in enum order: Shaker = 0, Giver = 1, two .. king = 2 .. 12
      (there is no ten: jack is 10), Taker = 13, Mover = 14. */
  datatype CardValue =
    | Shaker | Giver
    | Two | Three | Four | Five | Six | Seven | Eight | Nine | Jack | Queen | King
    | Taker | Mover

  const ValuesInOrder: seq<CardValue> :=
    [Shaker, Giver, Two, Three, Four, Five, Six, Seven, Eight, Nine, Jack, Queen, King, Taker, Mover]

  const SuitsInOrder: seq<Suit> := [Spade, Heart, Club, Diamond, NoSuit]

  /** The integer behind each card value of the enum. */
  function ValueCode(v: CardValue): (n: nat)
    ensures n <= 14
  {
    match v
    case Shaker => 0
    case Giver => 1
    case Two => 2
    case Three => 3
    case Four => 4
    case Five => 5
    case Six => 6
    case Seven => 7
    case Eight => 8
    case Nine => 9
    case Jack => 10
    case Queen => 11
    case King => 12
    case Taker => 13
    case Mover => 14
  }

  /** The enum member with the given integer, if there is one. */
  function ValueOfCode(n: int): (v: Option<CardValue>)
    ensures v.Some? <==> 0 <= n <= 14
    ensures v.Some? ==> ValueCode(v.value) == n
  {
    if 0 <= n < |ValuesInOrder| then
      assert forall k :: 0 <= k < |ValuesInOrder| ==> ValueCode(ValuesInOrder[k]) == k;
      Some(ValuesInOrder[n])
    else None
  }

  function SuitOfCode(n: int): (s: Option<Suit>)
    ensures s.Some? <==> 0 <= n <= 4
    ensures s.Some? ==> SuitCode(s.value) == n
  {
    if 0 <= n < |SuitsInOrder| then Some(SuitsInOrder[n]) else None
  }

  /** `CardValue.number_values()`: the eleven ranked values, two through king,
      i.e. the enum members with codes 2 to 12. */
  const NumberValues: seq<CardValue> := ValuesInOrder[2..13]

  lemma NumberValuesListed()
    ensures NumberValues == [Two, Three, Four, Five, Six, Seven, Eight, Nine, Jack, Queen, King]
  {
  }

  /** `CardValue.special_values()`, in the order the deck appends them. */
  const SpecialValues: seq<CardValue> := [Taker, Giver, Mover, Shaker]

  /** `Suit.all_suits()`: the red suits followed by the black ones. */
  const AllSuits: seq<Suit> := [Heart, Diamond, Spade, Club]

  predicate IsNumberValue(v: CardValue) {
    2 <= ValueCode(v) <= 12
  }

  /** A card. `isSpecial` is the class attribute that tells a SpecialCard from a
      plain Card; it takes no part in equality. */
  datatype Card = Card(value: CardValue, suit: Suit, isSpecial: bool)

  /** `Card(value, suit)`: fails unless both integers name enum members. */
  function NewCard(value: int, suit: int): (r: Result<Card>)
    ensures r.Ok? <==> 0 <= value <= 14 && 0 <= suit <= 4
    ensures r.Err? ==> r.error == InvalidValue
    ensures r.Ok? ==> ValueCode(r.value.value) == value && SuitCode(r.value.suit) == suit
    ensures r.Ok? ==> !r.value.isSpecial
  {
    match ValueOfCode(value)
    case None => Err(InvalidValue)
    case Some(v) =>
      match SuitOfCode(suit)
      case None => Err(InvalidValue)
      case Some(s) => Ok(Card(v, s, false))
  }

  /** `SpecialCard(value, suit)`: any suit but `none` is refused before the
      value is checked; the result is flagged special. */
  function NewSpecialCard(value: int, suit: int): (r: Result<Card>)
    ensures r.Ok? <==> 0 <= value <= 14 && suit == 4
    ensures r.Err? ==> r.error == InvalidValue
    ensures r.Ok? ==> r.value.isSpecial && r.value.suit == NoSuit && ValueCode(r.value.value) == value
  {
    if suit != SuitCode(NoSuit) then Err(InvalidValue)
    else
      match NewCard(value, suit)
      case Err(e) => Err(e)
      case Ok(c) => Ok(c.(isSpecial := true))
  }

  /** A special card of the given value, as the deck and the engine build them. */
  function SpecialCard(v: CardValue): Card {
    Card(v, NoSuit, true)
  }

  /** `Card.__eq__` between two cards: value and suit, never the special flag. */
  predicate Same(a: Card, b: Card) {
    a.value == b.value && a.suit == b.suit
  }

  /** `Card.__eq__` against a possibly absent card: a card never equals None. */
  predicate Equals(a: Card, other: Option<Card>) {
    if other.None? then false else Same(a, other.value)
  }

  /** `Card.__lt__`: same suit compares values, otherwise suits compare. */
  predicate Less(a: Card, b: Card) {
    if a.suit == b.suit then ValueCode(a.value) < ValueCode(b.value)
    else SuitCode(a.suit) < SuitCode(b.suit)
  }

  /** `__gt__` as `functools.total_ordering` derives it from `__lt__` and `__eq__`. */
  predicate Greater(a: Card, b: Card) {
    !Less(a, b) && !Same(a, b)
  }

  /** `Card.pointvalue`: the same rule for every card, special or not. */
  function PointValue(c: Card): int {
    100 + ValueCode(c.value) * 25
  }

  predicate IsMover(c: Card) { c.value == Mover }
  predicate IsShaker(c: Card) { c.value == Shaker }
  predicate IsGiver(c: Card) { c.value == Giver }
  predicate IsTaker(c: Card) { c.value == Taker }

  /** `card in cards` for a list of cards: membership by card equality. */
  predicate Holds(cards: seq<Card>, c: Card) {
    exists i :: 0 <= i < |cards| && Same(cards[i], c)
  }

  /** The position `list.remove` finds: the first card equal to `c`. */
  function FirstSame(cards: seq<Card>, c: Card): (i: nat)
    requires Holds(cards, c)
    ensures i < |cards| && Same(cards[i], c)
    ensures forall j :: 0 <= j < i ==> !Same(cards[j], c)
  {
    if Same(cards[0], c) then 0
    else
      assert Holds(cards[1..], c) by {
        var k :| 0 <= k < |cards| && Same(cards[k], c);
        assert k > 0 && Same(cards[1..][k - 1], c);
      }
      1 + FirstSame(cards[1..], c)
  }

  /** `cards.remove(c)`: drops exactly the first card equal to `c`. */
  function RemoveFirst(cards: seq<Card>, c: Card): (rest: seq<Card>)
    requires Holds(cards, c)
    ensures |rest| + 1 == |cards|
    ensures multiset(rest) + multiset{cards[FirstSame(cards, c)]} == multiset(cards)
  {
    var i := FirstSame(cards, c);
    assert cards == cards[..i] + [cards[i]] + cards[i + 1..];
    cards[..i] + cards[i + 1..]
  }

  /** Card equality is an equivalence relation that identifies exactly the
      cards with equal value and suit. */
  lemma SameIsEquivalence(a: Card, b: Card, c: Card)
    ensures Same(a, a)
    ensures Same(a, b) ==> Same(b, a)
    ensures Same(a, b) && Same(b, c) ==> Same(a, c)
    ensures Same(a, b) <==> (a.value, a.suit) == (b.value, b.suit)
    ensures Same(a, b) && a.isSpecial == b.isSpecial ==> a == b
  {
  }

  /** A card never equals None, and equals a present card exactly when value
      and suit agree. */
  lemma EqualsMeans(a: Card, other: Option<Card>)
    ensures !Equals(a, None)
    ensures Equals(a, other) <==> other.Some? && a.value == other.value.value && a.suit == other.value.suit
  {
  }

  /** `Less` is a strict order and, together with equality, total: exactly one
      of a < b, a == b, b < a holds. */
  lemma LessIsStrictTotalOrder(a: Card, b: Card, c: Card)
    ensures !Less(a, a)
    ensures Less(a, b) && Less(b, c) ==> Less(a, c)
    ensures Less(a, b) ==> !Less(b, a) && !Same(a, b)
    ensures Less(a, b) || Same(a, b) || Less(b, a)
  {
    SuitCodeInjective(a.suit, b.suit);
    ValueCodeInjective(a.value, b.value);
  }

  /** The ordering is lexicographic on (suit code, value code). */
  lemma LessIsLexicographic(a: Card, b: Card)
    ensures Less(a, b) <==>
      SuitCode(a.suit) < SuitCode(b.suit)
      || (SuitCode(a.suit) == SuitCode(b.suit) && ValueCode(a.value) < ValueCode(b.value))
  {
    SuitCodeInjective(a.suit, b.suit);
  }

  /** A card with suit `none`, which every special card has, sorts after every suited card. */
  lemma SpecialSortsLast(a: Card, s: Card)
    requires a.suit != NoSuit && s.suit == NoSuit
    ensures Less(a, s) && Greater(s, a)
  {
  }

  /** The derived `>` is exactly the converse of `<`. */
  lemma GreaterIsConverse(a: Card, b: Card)
    ensures Greater(a, b) <==> Less(b, a)
  {
    LessIsStrictTotalOrder(a, b, a);
  }

  /** Point values run from 100 (Shaker) to 450 (Mover) in steps of 25, ordered
      by card value and independent of suit and special flag. */
  lemma PointValueRange(a: Card, b: Card)
    ensures 100 <= PointValue(a) <= 450 && (PointValue(a) - 100) % 25 == 0
    ensures ValueCode(a.value) < ValueCode(b.value) ==> PointValue(a) < PointValue(b)
    ensures PointValue(a) == PointValue(b) <==> a.value == b.value
  {
    ValueCodeInjective(a.value, b.value);
  }

  lemma SuitCodeInjective(a: Suit, b: Suit)
    ensures SuitCode(a) == SuitCode(b) ==> a == b
  {
  }

  lemma ValueCodeInjective(a: CardValue, b: CardValue)
    ensures ValueCode(a) == ValueCode(b) ==> a == b
  {
  }

  /** The six cards of the ordering test, pairwise ordered as listed, with the
      special Shaker last. */
  lemma OrderingExample()
    ensures
      var order := [Card(Five, Spade, false), Card(Four, Heart, false), Card(Two, Club, false),
                    Card(Three, Club, false), Card(Three, Diamond, false), SpecialCard(Shaker)];
      forall i, j :: 0 <= i < j < |order| ==> Less(order[i], order[j]) && Greater(order[j], order[i])
  {
  }
}

=== FILE: decks.dfy ===
/** The draw pile: the composition of a new deck, its shuffle, and drawing
    from the front. */
module Decks {
  import opened Results
  import opened Cards

  /** One value paired with every suit, as `product` yields it, built through `Card`. */
  function Row(v: CardValue, suits: seq<Suit>): (row: seq<Card>)
    ensures |row| == |suits|
  {
    if suits == [] then [] else [Card(v, suits[0], false)] + Row(v, suits[1..])
  }

  /** `starmap(Card, product(values, suits))`: value-major, suit-minor. */
  function Product(values: seq<CardValue>, suits: seq<Suit>): seq<Card> {
    if values == [] then [] else Row(values[0], suits) + Product(values[1..], suits)
  }

  /** Two copies of a special card per listed value, appended in order. */
  function Pairs(values: seq<CardValue>): (cards: seq<Card>)
    ensures |cards| == 2 * |values|
  {
    if values == [] then [] else [SpecialCard(values[0]), SpecialCard(values[0])] + Pairs(values[1..])
  }

  /** The cards `shuffle_new_deck` collects before shuffling them. */
  function NewDeckCards(): seq<Card> {
    Product(NumberValues, AllSuits) + Pairs(SpecialValues)
  }

  /** How many copies of a card a new deck holds: one of every plain number
      card in a real suit, two of every special card, nothing else. */
  function ExpectedCopies(c: Card): nat {
    if !c.isSpecial && c.suit != NoSuit && IsNumberValue(c.value) then 1
    else if c.isSpecial && c.suit == NoSuit && c.value in {Taker, Giver, Mover, Shaker} then 2
    else 0
  }

  lemma {:induction false} RowCopies(v: CardValue, suits: seq<Suit>, c: Card)
    ensures multiset(Row(v, suits))[c] == if c.value == v && !c.isSpecial then multiset(suits)[c.suit] else 0
  {
    if suits != [] {
      RowCopies(v, suits[1..], c);
      assert suits == [suits[0]] + suits[1..];
    }
  }

  lemma {:induction false} ProductCopies(values: seq<CardValue>, suits: seq<Suit>, c: Card)
    ensures multiset(Product(values, suits))[c]
         == if c.isSpecial then 0 else multiset(values)[c.value] * multiset(suits)[c.suit]
  {
    if values != [] {
      ProductCopies(values[1..], suits, c);
      RowCopies(values[0], suits, c);
      ProductSplit(values, suits, c);
      var m := multiset(suits)[c.suit];
      var k := multiset(values[1..])[c.value];
      MulStep(if values[0] == c.value then 1 else 0, k, m);
    }
  }

  /** One row and the rest of the product, counted separately. */
  lemma ProductSplit(values: seq<CardValue>, suits: seq<Suit>, c: Card)
    requires values != []
    ensures multiset(Product(values, suits))[c]
         == multiset(Row(values[0], suits))[c] + multiset(Product(values[1..], suits))[c]
    ensures multiset(values)[c.value] == (if values[0] == c.value then 1 else 0) + multiset(values[1..])[c.value]
  {
    assert Product(values, suits) == Row(values[0], suits) + Product(values[1..], suits);
    assert values == [values[0]] + values[1..];
  }

  lemma MulStep(a: int, k: int, m: int)
    ensures (a + k) * m == a * m + k * m
  {
  }

  lemma {:induction false} PairsCopies(values: seq<CardValue>, c: Card)
    ensures multiset(Pairs(values))[c]
         == if c.isSpecial && c.suit == NoSuit then 2 * multiset(values)[c.value] else 0
  {
    if values != [] {
      var pair := [SpecialCard(values[0]), SpecialCard(values[0])];
      PairsCopies(values[1..], c);
      assert Pairs(values) == pair + Pairs(values[1..]);
      assert multiset(pair + Pairs(values[1..]))[c] == multiset(pair)[c] + multiset(Pairs(values[1..]))[c];
      assert values == [values[0]] + values[1..];
      assert multiset(values)[c.value] == (if values[0] == c.value then 1 else 0) + multiset(values[1..])[c.value];
    }
  }

  lemma {:induction false} ProductLength(values: seq<CardValue>, suits: seq<Suit>)
    ensures |Product(values, suits)| == |values| * |suits|
  {
    if values != [] {
      ProductLength(values[1..], suits);
      MulStep(1, |values| - 1, |suits|);
    }
  }

  lemma SuitsOnce(s: Suit)
    ensures multiset(AllSuits)[s] == if s == NoSuit then 0 else 1
  {
    match s
    case Spade =>
    case Heart =>
    case Club =>
    case Diamond =>
    case NoSuit =>
  }

  predicate Distinct<T(==)>(s: seq<T>) {
    forall i, j :: 0 <= i < j < |s| ==> s[i] != s[j]
  }

  lemma {:induction false} DistinctOnce<T>(s: seq<T>, x: T)
    requires Distinct(s)
    ensures multiset(s)[x] == if x in s then 1 else 0
  {
    if s != [] {
      DistinctOnce(s[1..], x);
      assert s == [s[0]] + s[1..];
      assert s[0] !in s[1..];
    }
  }

  lemma NumberValuesOnce(v: CardValue)
    ensures multiset(NumberValues)[v] == if IsNumberValue(v) then 1 else 0
  {
    NumberValuesDistinct();
    NumberValuesListed();
    DistinctOnce(NumberValues, v);
    NumberValuesAreRanked(v);
  }

  lemma NumberValuesDistinct()
    ensures Distinct(NumberValues)
  {
    NumberValuesListed();
  }

  lemma NumberValuesAreRanked(v: CardValue)
    ensures v in NumberValues <==> IsNumberValue(v)
  {
    NumberValuesListed();
    match v
    case Shaker =>
    case Giver =>
    case Two =>
    case Three =>
    case Four =>
    case Five =>
    case Six =>
    case Seven =>
    case Eight =>
    case Nine =>
    case Jack =>
    case Queen =>
    case King =>
    case Taker =>
    case Mover =>
  }

  lemma SpecialValuesOnce(v: CardValue)
    ensures multiset(SpecialValues)[v] == if v in {Taker, Giver, Mover, Shaker} then 1 else 0
  {
    assert Distinct(SpecialValues);
    DistinctOnce(SpecialValues, v);
  }

  /** The new deck holds 52 cards: each of the eleven number values in each of
      the four real suits once, and two of each of the four special kinds. */
  lemma NewDeckComposition(c: Card)
    ensures |NewDeckCards()| == 52
    ensures multiset(NewDeckCards())[c] == ExpectedCopies(c)
  {
    NewDeckLength();
    NewDeckCopies(c);
  }

  lemma NewDeckLength()
    ensures |NewDeckCards()| == 52
  {
    ProductLength(NumberValues, AllSuits);
  }

  lemma NewDeckCopies(c: Card)
    ensures multiset(NewDeckCards())[c] == ExpectedCopies(c)
  {
    NumberValuesEachOnce();
    AllSuitsEachOnce();
    SpecialValuesEachOnce();
    DeckCopies(NumberValues, AllSuits, SpecialValues, c);
  }

  lemma NumberValuesEachOnce()
    ensures forall v :: multiset(NumberValues)[v] == if IsNumberValue(v) then 1 else 0
  {
    forall v ensures multiset(NumberValues)[v] == if IsNumberValue(v) then 1 else 0 {
      NumberValuesOnce(v);
    }
  }

  lemma AllSuitsEachOnce()
    ensures forall s :: multiset(AllSuits)[s] == if s == NoSuit then 0 else 1
  {
    forall s ensures multiset(AllSuits)[s] == if s == NoSuit then 0 else 1 {
      SuitsOnce(s);
    }
  }

  lemma SpecialValuesEachOnce()
    ensures forall v :: multiset(SpecialValues)[v] == if v in {Taker, Giver, Mover, Shaker} then 1 else 0
  {
    forall v ensures multiset(SpecialValues)[v] == if v in {Taker, Giver, Mover, Shaker} then 1 else 0 {
      SpecialValuesOnce(v);
    }
  }

  /** Any deck built like the new deck, from number values and suits that each
      occur once and special kinds that each occur once, holds the expected
      copies of every card. */
  lemma DeckCopies(values: seq<CardValue>, suits: seq<Suit>, specials: seq<CardValue>, c: Card)
    requires forall v :: multiset(values)[v] == if IsNumberValue(v) then 1 else 0
    requires forall s :: multiset(suits)[s] == if s == NoSuit then 0 else 1
    requires forall v :: multiset(specials)[v] == if v in {Taker, Giver, Mover, Shaker} then 1 else 0
    ensures multiset(Product(values, suits) + Pairs(specials))[c] == ExpectedCopies(c)
  {
    ProductCopies(values, suits, c);
    PairsCopies(specials, c);
    var a := multiset(values)[c.value];
    var b := multiset(suits)[c.suit];
    assert a * b == if a == 1 && b == 1 then 1 else 0 by {
      if a == 0 || b == 0 { assert a * b == 0; }
    }
    var numbers := Product(values, suits);
    var pairs := Pairs(specials);
    assert multiset(numbers + pairs)[c] == multiset(numbers)[c] + multiset(pairs)[c];
  }

  /** `random.shuffle`: the Fisher-Yates pass CPython performs, swapping
      position i with a random position j <= i for i from the end down to 1.
      `rng[k]` is the value the random source returns at step k, a draw below
      `|cards| - k`. */
  method Shuffle(cards: seq<Card>, rng: seq<nat>) returns (shuffled: seq<Card>)
    requires |cards| <= |rng| + 1
    requires forall k :: 0 <= k < |rng| ==> rng[k] < |cards| - k
    ensures |shuffled| == |cards|
    ensures multiset(shuffled) == multiset(cards)
  {
    shuffled := cards;
    var i := |cards| - 1;
    while i >= 1
      invariant -1 <= i < |cards|
      invariant |shuffled| == |cards|
      invariant multiset(shuffled) == multiset(cards)
    {
      var k := |cards| - 1 - i;
      var j := rng[k];
      var a, b := shuffled[i], shuffled[j];
      shuffled := shuffled[i := b][j := a];
      i := i - 1;
    }
  }

  /** `Deck.shuffle_new_deck`: a random arrangement of the 52 new-deck cards. */
  method ShuffleNewDeck(rng: seq<nat>) returns (deck: seq<Card>)
    requires 51 <= |rng|
    requires forall k :: 0 <= k < |rng| ==> rng[k] < 52 - k
    ensures |deck| == 52
    ensures forall c :: multiset(deck)[c] == ExpectedCopies(c)
  {
    NewDeckLength();
    deck := Shuffle(NewDeckCards(), rng);
    forall c
      ensures multiset(deck)[c] == ExpectedCopies(c)
    {
      NewDeckCopies(c);
    }
  }

  /** `Deck.draw_card`: pops the front card; an empty deck raises. */
  function Draw(deck: seq<Card>): (r: Result<(Card, seq<Card>)>)
    ensures r.Ok? <==> |deck| > 0
    ensures r.Err? ==> r.error == EmptyDeck
    ensures r.Ok? ==> [r.value.0] + r.value.1 == deck
  {
    if |deck| == 0 then Err(EmptyDeck) else Ok((deck[0], deck[1..]))
  }

  /** `n` successive draws: the drawn cards in order and the remaining pile. */
  function DrawTimes(deck: seq<Card>, n: nat): (r: Result<(seq<Card>, seq<Card>)>)
    ensures r.Ok? <==> n <= |deck|
    ensures r.Err? ==> r.error == EmptyDeck
    ensures r.Ok? ==> r.value.0 + r.value.1 == deck && |r.value.0| == n
  {
    if n == 0 then Ok(([], deck))
    else
      var (c, rest) :- Draw(deck);
      var (drawn, left) :- DrawTimes(rest, n - 1);
      Ok(([c] + drawn, left))
  }

  /** Any arrangement of the new-deck cards holds exactly 52 cards. */
  lemma NewDeckSize(deck: seq<Card>)
    requires forall c :: multiset(deck)[c] == ExpectedCopies(c)
    ensures |deck| == 52
  {
    var unshuffled := NewDeckCards();
    forall c ensures multiset(deck)[c] == multiset(unshuffled)[c] {
      NewDeckComposition(c);
    }
    SameCopiesSameLength(deck, unshuffled);
    NewDeckComposition(SpecialCard(Taker));
  }

  lemma SameCopiesSameLength(a: seq<Card>, b: seq<Card>)
    requires forall c :: multiset(a)[c] == multiset(b)[c]
    ensures |a| == |b|
  {
    assert multiset(a) == multiset(b);
    assert |a| == |multiset(a)|;
  }

  /** A shuffled new deck yields exactly 52 draws, which empty it; the 53rd fails. */
  lemma FiftyTwoDraws(deck: seq<Card>, n: nat)
    requires forall c :: multiset(deck)[c] == ExpectedCopies(c)
    ensures DrawTimes(deck, n).Ok? <==> n <= 52
    ensures n == 52 ==> DrawTimes(deck, n).Ok? && DrawTimes(deck, n).value.1 == []
  {
    NewDeckSize(deck);
  }
}

=== FILE: results.dfy ===
/** Outcome types shared by the Lohai model: the exceptions the rules engine
    raises become values returned alongside (or instead of) the new state. */
module Results {

  /** The failures of the rules engine. */
  datatype Error =
    | InvalidCard     // the card is not in the player's hand, or suit-following is violated
    | NotYourTurn     // a seat other than the current player tries to play
    | InvalidMove     // a second play into a filled slot, or an illegal special-card resolution
    | EmptyDeck       // a card is drawn from an empty draw pile (`list.pop(0)` raises IndexError)
    | InvalidValue    // a Card or SpecialCard is built from an out-of-domain value or suit
    | EmptySlot       // `.value` is looked up on an empty field slot (AttributeError)
    | Inconsistent    // the recorded Taker/Giver holds a card of another kind

  datatype Option<+T> = None | Some(value: T)

  /** Either the new value or the error that was raised; usable with `:-`. */
  datatype Result<+T> = Ok(value: T) | Err(error: Error) {
    predicate IsFailure() {
      Err?
    }

    function PropagateFailure<U>(): Result<U>
      requires Err?
    {
      Err(error)
    }

    function Extract(): T
      requires Ok?
    {
      value
    }
  }

  /** The outcome of a validation step that returns nothing but may raise. */
  datatype Check = Pass | Fail(error: Error)
}

=== FILE: rounds.dfy ===
/** A round of Lohai: the four seats' cards, the draw pile, the trump card, the
    tricks won, and the trick in progress, with every move the rules engine
    accepts. The `Hand` methods that reach into the round (drawing, removing
    cards from a seat) are modelled here, over the whole round state. */
module Rounds {
  import opened Results
  import opened Cards
  import opened Decks
  import opened Tricks

  datatype Round = Round(
    deck: seq<Card>,
    hands: seq<seq<Card>>,
    trumpCard: Card,
    tricksWon: seq<nat>,
    current: Trick)

  /** Every per-seat list has one entry per seat. */
  predicate Valid(r: Round) {
    |r.hands| == PlayerCount && |r.tricksWon| == PlayerCount && Shaped(r.current)
  }

  /** The trump suit is the trump card's suit, `none` when that card is special. */
  function TrumpSuit(r: Round): Suit {
    r.trumpCard.suit
  }

  /** The round's stake is the trump card's point value: a multiple of 25
      between 100 and 450 from which the trump card's value can be read back. */
  function RoundPointValue(r: Round): (v: int)
    ensures 100 <= v <= 450 && (v - 100) % 25 == 0
    ensures ValueOfCode((v - 100) / 25) == Some(r.trumpCard.value)
  {
    var v := PointValue(r.trumpCard);
    PointValueRange(r.trumpCard, r.trumpCard);
    ValueCodeInjective(ValueOfCode((v - 100) / 25).value, r.trumpCard.value);
    v
  }

  /** `Round(deck, hands, trump_card)`: the given cards, no tricks won by any
      seat, and an empty trick led by seat 0. */
  function NewRound(deck: seq<Card>, hands: seq<seq<Card>>, trumpCard: Card): (r: Round)
    ensures r.deck == deck && r.hands == hands && r.trumpCard == trumpCard && TrumpSuit(r) == trumpCard.suit
    ensures |hands| == PlayerCount ==> Valid(r)
    ensures |r.tricksWon| == PlayerCount && forall k :: 0 <= k < PlayerCount ==> r.tricksWon[k] == 0
    ensures TotalTricks(r.tricksWon) == 0
    ensures FilledCount(r.current.field) == 0 && r.current.firstPlayer == 0 && r.current.curPlayer == 0
    ensures r.current.leadSuit.None? && r.current.recent.None?
  {
    var counts: seq<nat> := [0, 0, 0, 0];
    assert TotalTricks(counts[3..]) == 0;
    Round(deck, hands, trumpCard, counts, NewTrick(0))
  }

  function TotalTricks(t: seq<nat>): nat {
    if t == [] then 0 else t[0] + TotalTricks(t[1..])
  }

  /** Changing one seat's count changes the total by the difference. */
  lemma {:induction false} TotalAfterUpdate(t: seq<nat>, i: nat, v: nat)
    requires i < |t|
    ensures TotalTricks(t[i := v]) + t[i] == TotalTricks(t) + v
  {
    if i > 0 {
      TotalAfterUpdate(t[1..], i - 1, v);
      assert t[i := v][1..] == t[1..][i - 1 := v];
    }
  }

  /** Crediting a seat with a trick: its count goes up by one and it leads a new trick. */
  function Credit(r: Round, w: Seat): (r': Round)
    requires Valid(r)
    ensures Valid(r')
    ensures TotalTricks(r'.tricksWon) == TotalTricks(r.tricksWon) + 1
    ensures r'.tricksWon[w] == r.tricksWon[w] + 1
    ensures forall k :: 0 <= k < PlayerCount && k != w ==> r'.tricksWon[k] == r.tricksWon[k]
    ensures r'.current.curPlayer == w && FilledCount(r'.current.field) == 0 && Shaped(r'.current)
    ensures r'.current.firstPlayer == w && r'.current.leadSuit.None? && r'.current.recent.None?
    ensures r'.deck == r.deck && r'.hands == r.hands && r'.trumpCard == r.trumpCard
  {
    TotalAfterUpdate(r.tricksWon, w, r.tricksWon[w] + 1);
    r.(tricksWon := r.tricksWon[w := r.tricksWon[w] + 1], current := NewTrick(w))
  }

  // ---------------------------------------------------------------------------
  // The seats' cards

  /** `player_has_card`: membership by card equality. */
  predicate PlayerHasCard(r: Round, p: Seat, c: Card)
    requires Valid(r)
  {
    Holds(r.hands[p], c)
  }

  /** `player_has_suit`: the suit is among the suits of the seat's cards. */
  function PlayerHasSuit(r: Round, p: Seat, s: Suit): (b: bool)
    requires Valid(r)
    ensures b <==> exists i :: 0 <= i < |r.hands[p]| && r.hands[p][i].suit == s
  {
    var suits := set c | c in r.hands[p] :: c.suit;
    s in suits
  }

  /** `remove_card_from_hand`: the seat gives up exactly one card equal to
      `c` (the first); nothing else changes. A card not held is refused. */
  function RemoveCardFromHand(r: Round, p: Seat, c: Card): (res: Result<Round>)
    requires Valid(r)
    ensures res.Ok? <==> PlayerHasCard(r, p, c)
    ensures res.Err? ==> res.error == InvalidCard
    ensures res.Ok? ==> Valid(res.value) && res.value == r.(hands := res.value.hands)
    ensures res.Ok? ==> forall q :: 0 <= q < PlayerCount && q != p ==> res.value.hands[q] == r.hands[q]
    ensures res.Ok? ==> exists x :: Same(x, c) && multiset(res.value.hands[p]) + multiset{x} == multiset(r.hands[p])
  {
    if !PlayerHasCard(r, p, c) then Err(InvalidCard)
    else
      var rest := RemoveFirst(r.hands[p], c);
      assert Same(r.hands[p][FirstSame(r.hands[p], c)], c);
      Ok(r.(hands := r.hands[p := rest]))
  }

  /** The follow-suit rule: a special card, a first suited card, a lead-suit
      card, or any card from a seat void in the lead suit. */
  predicate FollowsSuit(r: Round, p: Seat, c: Card)
    requires Valid(r)
  {
    || c.isSpecial
    || r.current.leadSuit.None?
    || c.suit == r.current.leadSuit.value
    || !PlayerHasSuit(r, p, r.current.leadSuit.value)
  }

  /** `_is_valid_play`: the card must be held and must follow suit. */
  function IsValidPlay(r: Round, p: Seat, c: Card): (chk: Check)
    requires Valid(r)
    ensures chk.Pass? <==> PlayerHasCard(r, p, c) && FollowsSuit(r, p, c)
    ensures chk.Fail? ==> chk.error == InvalidCard
  {
    if !PlayerHasCard(r, p, c) then Fail(InvalidCard)
    else if c.isSpecial then Pass
    else if r.current.leadSuit.Some? && c.suit != r.current.leadSuit.value
            && PlayerHasSuit(r, p, r.current.leadSuit.value) then Fail(InvalidCard)
    else Pass
  }

  // ---------------------------------------------------------------------------
  // Mover eligibility and trick transfer

  function MinOf(t: seq<nat>): (m: nat)
    requires |t| > 0
    ensures forall k :: 0 <= k < |t| ==> m <= t[k]
    ensures exists k :: 0 <= k < |t| && t[k] == m
  {
    if |t| == 1 then t[0]
    else
      var m := MinOf(t[1..]);
      assert forall k :: 1 <= k < |t| ==> t[k] == t[1..][k - 1];
      if t[0] <= m then t[0] else m
  }

  function MaxOf(t: seq<nat>): (m: nat)
    requires |t| > 0
    ensures forall k :: 0 <= k < |t| ==> t[k] <= m
    ensures exists k :: 0 <= k < |t| && t[k] == m
  {
    if |t| == 1 then t[0]
    else
      var m := MaxOf(t[1..]);
      assert forall k :: 1 <= k < |t| ==> t[k] == t[1..][k - 1];
      if t[0] >= m then t[0] else m
  }

  /** `player_can_mover`: the seat is strictly between the fewest and the most
      tricks won, i.e. some seat has fewer and some seat has more. */
  predicate CanMover(t: seq<nat>, p: Seat)
    requires |t| == PlayerCount
  {
    MinOf(t) < t[p] && t[p] < MaxOf(t)
  }

  /** A seat may use a Mover exactly when some seat has fewer tricks and some
      seat has more. */
  lemma CanMoverMeans(t: seq<nat>, p: Seat)
    requires |t| == PlayerCount
    ensures CanMover(t, p) <==> (exists a :: 0 <= a < |t| && t[a] < t[p]) && (exists z :: 0 <= z < |t| && t[p] < t[z])
  {
  }

  /** `transfer_trick`: one trick moves from `source` to `dest`; a source
      without tricks is refused. The total is preserved. */
  function TransferTrick(t: seq<nat>, source: Seat, dest: Seat): (res: Result<seq<nat>>)
    requires |t| == PlayerCount
    ensures res.Ok? <==> t[source] >= 1
    ensures res.Err? ==> res.error == InvalidMove
    ensures res.Ok? ==> |res.value| == PlayerCount && TotalTricks(res.value) == TotalTricks(t)
    ensures res.Ok? && source != dest ==> res.value[source] + 1 == t[source] && res.value[dest] == t[dest] + 1
    ensures res.Ok? && source == dest ==> res.value == t
    ensures res.Ok? ==> forall k :: 0 <= k < PlayerCount && k != source && k != dest ==> res.value[k] == t[k]
  {
    if t[source] < 1 then Err(InvalidMove)
    else
      var taken := t[source := t[source] - 1];
      var given := taken[dest := taken[dest] + 1];
      TotalAfterUpdate(t, source, t[source] - 1);
      TotalAfterUpdate(taken, dest, taken[dest] + 1);
      Ok(given)
  }

  // ---------------------------------------------------------------------------
  // Placing cards on the field

  predicate IsSuffix(a: seq<Card>, b: seq<Card>) {
    |a| <= |b| && a == b[|b| - |a|..]
  }

  lemma SuffixTransitive(a: seq<Card>, b: seq<Card>, c: seq<Card>)
    requires IsSuffix(a, b) && IsSuffix(b, c)
    ensures IsSuffix(a, c)
  {
    assert c[|c| - |b|..][|b| - |a|..] == c[|c| - |a|..];
  }

  /** What placing a card at seat `p` may change: the slot of `p`, the lead
      suit if it was unset, the recorded Taker/Giver (only to one played by
      `p`), the turn, and the deck (only by drawing from its front). */
  predicate Framed(before: Round, after: Round, p: Seat)
    requires Valid(before) && Valid(after)
  {
    && after.hands == before.hands
    && after.tricksWon == before.tricksWon
    && after.trumpCard == before.trumpCard
    && IsSuffix(after.deck, before.deck)
    && after.current.firstPlayer == before.current.firstPlayer
    && (forall k :: 0 <= k < PlayerCount && k != p ==> after.current.field[k] == before.current.field[k])
    && (before.current.leadSuit.Some? ==> after.current.leadSuit == before.current.leadSuit)
    && (after.current.recent == before.current.recent
        || (after.current.recent.Some? && after.current.recent.value.player == p))
  }

  /** Where a chain of placements stops: the seat's slot is filled, and a Mover
      stays only for a seat that may use it, a Shaker only when another slot is filled. */
  predicate Settled(r: Round, p: Seat)
    requires Valid(r)
  {
    && r.current.field[p].Some?
    && (IsMover(r.current.field[p].value) ==> CanMover(r.tricksWon, p))
    && (IsShaker(r.current.field[p].value) ==> FilledCount(r.current.field) > 1)
  }

  /** A card that neither waits for input nor is replaced from the deck. */
  predicate Ordinary(c: Card) {
    !IsMover(c) && !IsShaker(c)
  }

  /** The bookkeeping that ends `_play_card_to_field` for the card `c` it was
      called with: record a Taker or Giver, set an unset lead suit from a
      non-special card, pass the turn. */
  function AfterPlace(r: Round, p: Seat, c: Card): Round {
    var t := r.current;
    var recent := if IsTaker(c) || IsGiver(c) then Some(CardPlayer(c, p)) else t.recent;
    var lead := if t.leadSuit.None? && !c.isSpecial then Some(c.suit) else t.leadSuit;
    r.(current := t.(recent := recent, leadSuit := lead, curPlayer := (t.curPlayer + 1) % PlayerCount))
  }

  /** The round with one field slot replaced. */
  function WithSlot(r: Round, p: Seat, slot: Option<Card>): Round
    requires Valid(r)
  {
    r.(current := r.current.(field := r.current.field[p := slot]))
  }

  /** The bookkeeping touches neither the field, the deck, the hands nor the
      counts, and passes the turn to the next seat. */
  lemma AfterPlaceFrame(r: Round, p: Seat, c: Card)
    ensures var after := AfterPlace(r, p, c);
      && after.current.field == r.current.field && after.deck == r.deck
      && after.hands == r.hands && after.tricksWon == r.tricksWon
      && after.current.curPlayer == (r.current.curPlayer + 1) % PlayerCount
  {
  }

  /** `_play_card_to_field`. The card goes into the seat's slot. A Mover waits
      for input when the seat may use it and is otherwise replaced from the
      deck; a Shaker waits when another slot is filled and is otherwise
      replaced from the deck. A replacement is placed by the same rule, and
      whenever the function does not wait it ends with `AfterPlace` for its own
      card, so a replaced card passes the turn once more after its replacement did. */
  function PlaceCard(r: Round, p: Seat, c: Card): (res: Result<Round>)
    requires Valid(r)
    ensures res.Err? ==> res.error == EmptyDeck
    ensures res.Ok? ==> Valid(res.value) && Framed(r, res.value, p) && Settled(res.value, p)
    decreases |r.deck|, 1
  {
    var placed := WithSlot(r, p, Some(c));
    if IsMover(c) then
      if CanMover(placed.tricksWon, p) then
        WaitingFramed(r, p, c);
        Ok(placed)
      else
        var replaced :- PlayFromDeck(placed, p);
        ReplacedFramed(r, p, c, replaced);
        Ok(AfterPlace(replaced, p, c))
    else if IsShaker(c) then
      if !(FilledCount(placed.current.field) > 1) then
        var replaced :- PlayFromDeck(placed, p);
        ReplacedFramed(r, p, c, replaced);
        Ok(AfterPlace(replaced, p, c))
      else
        WaitingFramed(r, p, c);
        Ok(placed)
    else
      OrdinaryFramed(r, p, c);
      Ok(AfterPlace(placed, p, c))
  }

  /** `_play_card_from_deck`: the seat's slot is filled with the top card of
      the deck, placed as if played. */
  function PlayFromDeck(r: Round, p: Seat): (res: Result<Round>)
    requires Valid(r)
    ensures |r.deck| == 0 ==> res == Err(EmptyDeck)
    ensures res.Err? ==> res.error == EmptyDeck
    ensures res.Ok? ==> Valid(res.value) && Framed(r, res.value, p) && Settled(res.value, p)
    ensures res.Ok? ==> |res.value.deck| < |r.deck|
    decreases |r.deck|, 0
  {
    var (top, rest) :- Draw(r.deck);
    var res :- PlaceCard(r.(deck := rest), p, top);
    DrawnFramed(r, p, res);
    Ok(res)
  }

  /** A card left waiting in its slot changes nothing but that slot. */
  lemma WaitingFramed(r: Round, p: Seat, c: Card)
    requires Valid(r)
    requires IsMover(c) ==> CanMover(r.tricksWon, p)
    requires IsShaker(c) ==> FilledCount(WithSlot(r, p, Some(c)).current.field) > 1
    ensures Valid(WithSlot(r, p, Some(c)))
    ensures Framed(r, WithSlot(r, p, Some(c)), p) && Settled(WithSlot(r, p, Some(c)), p)
  {
  }

  /** An ordinary card placed and booked changes only its slot, the lead
      suit if unset, the recorded Taker/Giver and the turn. */
  lemma OrdinaryFramed(r: Round, p: Seat, c: Card)
    requires Valid(r) && Ordinary(c)
    ensures Valid(AfterPlace(WithSlot(r, p, Some(c)), p, c))
    ensures Framed(r, AfterPlace(WithSlot(r, p, Some(c)), p, c), p)
    ensures Settled(AfterPlace(WithSlot(r, p, Some(c)), p, c), p)
  {
  }

  /** The bookkeeping of a replaced Mover or Shaker keeps what its
      replacement's placement established. */
  lemma ReplacedFramed(r: Round, p: Seat, c: Card, replaced: Round)
    requires Valid(r) && Valid(replaced) && !IsTaker(c) && !IsGiver(c)
    requires Framed(WithSlot(r, p, Some(c)), replaced, p) && Settled(replaced, p)
    ensures Valid(AfterPlace(replaced, p, c))
    ensures Framed(r, AfterPlace(replaced, p, c), p) && Settled(AfterPlace(replaced, p, c), p)
  {
    SuffixTransitive(replaced.deck, WithSlot(r, p, Some(c)).deck, r.deck);
  }

  /** Placing the top card of the deck frames the round it was drawn from. */
  lemma DrawnFramed(r: Round, p: Seat, res: Round)
    requires Valid(r) && |r.deck| > 0 && Valid(res)
    requires Framed(r.(deck := r.deck[1..]), res, p)
    ensures Framed(r, res, p) && |res.deck| < |r.deck|
  {
    SuffixTransitive(res.deck, r.deck[1..], r.deck);
  }

  // ---------------------------------------------------------------------------
  // Playing a card

  /** Every check `Hand.play_card` makes before it changes anything. */
  predicate MayPlay(r: Round, p: Seat, c: Card)
    requires Valid(r)
  {
    && r.current.curPlayer == p
    && r.current.field[p].None?
    && PlayerHasCard(r, p, c)
    && FollowsSuit(r, p, c)
  }

  /** `Hand.play_card`: turn, empty slot, then `_is_valid_play`, in that order;
      then the card leaves the seat's hand and is placed. Only a replacement
      draw can fail after the checks pass. */
  function PlayToTrick(r: Round, p: Seat, c: Card): (res: Result<Round>)
    requires Valid(r)
    ensures r.current.curPlayer != p ==> res == Err(NotYourTurn)
    ensures r.current.curPlayer == p && r.current.field[p].Some? ==> res == Err(InvalidMove)
    ensures r.current.curPlayer == p && r.current.field[p].None? && !(PlayerHasCard(r, p, c) && FollowsSuit(r, p, c))
      ==> res == Err(InvalidCard)
    ensures MayPlay(r, p, c) ==> res.Ok? || res.error == EmptyDeck
    ensures MayPlay(r, p, c) && Ordinary(c) ==> res.Ok?
    ensures res.Ok? ==> MayPlay(r, p, c) && Valid(res.value) && Settled(res.value, p)
    ensures res.Ok? ==> forall q :: 0 <= q < PlayerCount && q != p ==> res.value.hands[q] == r.hands[q]
    ensures res.Ok? ==> exists x :: Same(x, c) && multiset(res.value.hands[p]) + multiset{x} == multiset(r.hands[p])
    ensures res.Ok? ==> res.value.tricksWon == r.tricksWon && res.value.trumpCard == r.trumpCard
    ensures res.Ok? ==> IsSuffix(res.value.deck, r.deck)
    ensures res.Ok? ==> forall k :: 0 <= k < PlayerCount && k != p ==> res.value.current.field[k] == r.current.field[k]
    ensures res.Ok? ==> res.value.current.firstPlayer == r.current.firstPlayer
    ensures res.Ok? && r.current.leadSuit.Some? ==> res.value.current.leadSuit == r.current.leadSuit
    ensures res.Ok? ==> (res.value.current.recent == r.current.recent
                         || (res.value.current.recent.Some? && res.value.current.recent.value.player == p))
  {
    if r.current.curPlayer != p then Err(NotYourTurn)
    else if r.current.field[r.current.curPlayer].Some? then Err(InvalidMove)
    else
      match IsValidPlay(r, p, c)
      case Fail(e) => Err(e)
      case Pass =>
        match RemoveCardFromHand(r, p, c)
        case Err(e) => Err(e)
        case Ok(removed) => PlaceCard(removed, p, c)
  }

  /** A successful play of a card that is neither a Mover nor a Shaker puts it
      in the seat's slot, takes one equal card from the seat's hand, sets an
      unset lead suit from a non-special card, records a Taker or Giver, and
      passes the turn to the next seat, leaving the deck alone. */
  lemma OrdinaryPlay(r: Round, p: Seat, c: Card)
    requires Valid(r) && PlayToTrick(r, p, c).Ok? && Ordinary(c)
    ensures var after := PlayToTrick(r, p, c).value;
      && after.current.field == r.current.field[p := Some(c)]
      && (forall q :: 0 <= q < PlayerCount && q != p ==> after.hands[q] == r.hands[q])
      && (exists x :: Same(x, c) && multiset(after.hands[p]) + multiset{x} == multiset(r.hands[p]))
      && after.current.leadSuit == (if r.current.leadSuit.None? && !c.isSpecial then Some(c.suit) else r.current.leadSuit)
      && after.current.recent == (if IsTaker(c) || IsGiver(c) then Some(CardPlayer(c, p)) else r.current.recent)
      && after.current.curPlayer == (p + 1) % PlayerCount
      && after.current.firstPlayer == r.current.firstPlayer
      && after.deck == r.deck && after.tricksWon == r.tricksWon && after.trumpCard == r.trumpCard
  {
  }

  /** The winner a completed trick should have: the seat of the most recent
      Taker, or, with no Taker or Giver played, the seat the ranking names
      (the first slot equal to the last card of maximal key). */
  predicate RightfulWinner(r: Round, w: Seat)
    requires Valid(r) && AllFilled(r.current.field)
  {
    match r.current.recent
    case Some(cp) => IsTaker(cp.card) && cp.player == w
    case None => TieBreakWinner(r.current.field, TrumpSuit(r), r.current.leadSuit, w)
  }

  /** A completed trick has at most one rightful winner. */
  lemma RightfulWinnerUnique(r: Round, w1: Seat, w2: Seat)
    requires Valid(r) && AllFilled(r.current.field)
    requires RightfulWinner(r, w1) && RightfulWinner(r, w2)
    ensures w1 == w2
  {
    if r.current.recent.None? {
      TieBreakWinnerUnique(r.current.field, TrumpSuit(r), r.current.leadSuit, w1, w2);
    }
  }

  lemma RightfulWinnerIs(r: Round, w: Seat)
    requires Valid(r) && AllFilled(r.current.field) && RightfulWinner(r, w)
    ensures forall v: Seat :: RightfulWinner(r, v) ==> v == w
  {
    forall v: Seat | RightfulWinner(r, v) ensures v == w {
      RightfulWinnerUnique(r, v, w);
    }
  }

  /** The most recent Taker/Giver is a Giver: the trick waits for its recipient. */
  predicate GiverPending(r: Round) {
    r.current.recent.Some? && IsGiver(r.current.recent.value.card)
  }

  /** `Round._process_trick_winner`. The winner is credited and leads a new
      trick, except that seat 0 (falsy in `if winner:`) and a pending Giver
      leave the round exactly as it was. */
  function ResolveTrick(r: Round): (res: Result<Round>)
    requires Valid(r) && HandComplete(r.current)
    ensures res.Err? <==> r.current.recent.Some? && !IsTaker(r.current.recent.value.card) && !GiverPending(r)
    ensures res.Err? ==> res.error == Inconsistent
    ensures res.Ok? ==> Valid(res.value)
    ensures res.Ok? && res.value != r ==> exists w: Seat :: w != 0 && RightfulWinner(r, w) && res.value == Credit(r, w)
    ensures res.Ok? && res.value == r ==> GiverPending(r) || RightfulWinner(r, 0)
    ensures res.Ok? ==> res.value.tricksWon[0] == r.tricksWon[0]
    ensures forall w: Seat :: RightfulWinner(r, w) ==> res == Ok(if w == 0 then r else Credit(r, w))
    ensures GiverPending(r) ==> res == Ok(r)
  {
    var winner :- ProcessTrickWinner(r.current, TrumpSuit(r));
    if winner.Some? then
      assert RightfulWinner(r, winner.value);
      RightfulWinnerIs(r, winner.value);
      if winner.value != 0 then Ok(Credit(r, winner.value)) else Ok(r)
    else Ok(r)
  }

  /** `Round.play_card`: play into the trick, then resolve the trick exactly
      when it is complete. */
  function PlayCard(r: Round, p: Seat, c: Card): (res: Result<Round>)
    requires Valid(r)
    ensures res.Ok? ==> Valid(res.value)
    ensures PlayToTrick(r, p, c).Err? ==> res == PlayToTrick(r, p, c)
    ensures res.Ok? ==>
      var played := PlayToTrick(r, p, c);
      && played.Ok?
      && (!HandComplete(played.value.current) ==> res.value == played.value)
      && (HandComplete(played.value.current) ==>
            res.value == played.value
            || exists w: Seat :: w != 0 && RightfulWinner(played.value, w) && res.value == Credit(played.value, w))
    ensures res.Err? ==> PlayToTrick(r, p, c).Err? || res.error == Inconsistent
    ensures PlayToTrick(r, p, c).Ok? ==>
      var played := PlayToTrick(r, p, c).value;
      && (!HandComplete(played.current) ==> res == Ok(played))
      && (HandComplete(played.current) ==>
            && (forall w: Seat :: RightfulWinner(played, w) ==> res == Ok(if w == 0 then played else Credit(played, w)))
            && (GiverPending(played) ==> res == Ok(played))
            && (res.Err? <==> played.current.recent.Some? && !IsTaker(played.current.recent.value.card) && !GiverPending(played)))
  {
    var played :- PlayToTrick(r, p, c);
    if HandComplete(played.current) then ResolveTrick(played) else Ok(played)
  }

  // ---------------------------------------------------------------------------
  // Resolving special cards

  /** `handle_mover`: the seat's slot must hold a Mover (an empty slot raises),
      one trick moves from `source` to `dest`, and the Mover is replaced from
      the deck. The seat's turn is not checked and the trick is not resolved. */
  function HandleMover(r: Round, player: Seat, source: Seat, dest: Seat): (res: Result<Round>)
    requires Valid(r)
    ensures r.current.field[player].None? ==> res == Err(EmptySlot)
    ensures r.current.field[player].Some? && !IsMover(r.current.field[player].value) ==> res == Err(InvalidMove)
    ensures r.current.field[player].Some? && IsMover(r.current.field[player].value) && r.tricksWon[source] == 0
      ==> res == Err(InvalidMove)
    ensures res.Ok? ==> r.current.field[player].Some? && IsMover(r.current.field[player].value)
    ensures res.Ok? ==> Valid(res.value) && TransferTrick(r.tricksWon, source, dest) == Ok(res.value.tricksWon)
    ensures res.Ok? ==> TotalTricks(res.value.tricksWon) == TotalTricks(r.tricksWon)
    ensures res.Ok? ==> Settled(res.value, player) && |res.value.deck| < |r.deck| && res.value.hands == r.hands
    ensures res.Ok? ==> forall k :: 0 <= k < PlayerCount && k != player ==> res.value.current.field[k] == r.current.field[k]
    ensures res.Ok? ==> IsSuffix(res.value.deck, r.deck) && res.value.trumpCard == r.trumpCard
    ensures res.Ok? ==> res.value.current.firstPlayer == r.current.firstPlayer
    ensures res.Ok? && r.current.leadSuit.Some? ==> res.value.current.leadSuit == r.current.leadSuit
    ensures res.Ok? ==> (res.value.current.recent == r.current.recent
                         || (res.value.current.recent.Some? && res.value.current.recent.value.player == player))
    ensures res.Err? ==> res.error in {EmptySlot, InvalidMove, EmptyDeck}
    ensures r.current.field[player].Some? && IsMover(r.current.field[player].value) && r.tricksWon[source] >= 1
      ==> res.Ok? || res.error == EmptyDeck
    ensures (r.current.field[player].Some? && IsMover(r.current.field[player].value) && r.tricksWon[source] >= 1 && |r.deck| == 0)
      ==> res == Err(EmptyDeck)
  {
    match r.current.field[player]
    case None => Err(EmptySlot)
    case Some(x) =>
      if !IsMover(x) then Err(InvalidMove)
      else
        var moved :- TransferTrick(r.tricksWon, source, dest);
        PlayFromDeck(r.(tricksWon := moved), player)
  }

  /** `handle_shaker`: the seat's slot must hold a Shaker (an empty slot
      raises) and the victim's slot must be filled. The victim's card moves to
      the seat's slot and the victim's slot is refilled from the deck, where a
      drawn Shaker may wait to shake back. The seat's turn is not checked and
      the trick is not resolved. */
  function HandleShaker(r: Round, player: Seat, victim: Seat): (res: Result<Round>)
    requires Valid(r)
    ensures r.current.field[player].None? ==> res == Err(EmptySlot)
    ensures r.current.field[player].Some? && !IsShaker(r.current.field[player].value) ==> res == Err(InvalidMove)
    ensures r.current.field[player].Some? && IsShaker(r.current.field[player].value) && r.current.field[victim].None?
      ==> res == Err(InvalidMove)
    ensures res.Ok? ==> r.current.field[player].Some? && IsShaker(r.current.field[player].value)
    ensures res.Ok? ==> Valid(res.value) && res.value.tricksWon == r.tricksWon && res.value.hands == r.hands
    ensures res.Ok? && player != victim ==> res.value.current.field[player] == r.current.field[victim]
    ensures res.Ok? ==> Settled(res.value, victim) && |res.value.deck| < |r.deck|
    ensures res.Ok? ==> forall k :: 0 <= k < PlayerCount && k != player && k != victim ==>
      res.value.current.field[k] == r.current.field[k]
    ensures res.Ok? ==> IsSuffix(res.value.deck, r.deck) && res.value.trumpCard == r.trumpCard
    ensures res.Ok? ==> res.value.current.firstPlayer == r.current.firstPlayer
    ensures res.Ok? && r.current.leadSuit.Some? ==> res.value.current.leadSuit == r.current.leadSuit
    ensures res.Ok? ==> (res.value.current.recent == r.current.recent
                         || (res.value.current.recent.Some? && res.value.current.recent.value.player == victim))
    ensures res.Err? ==> res.error in {EmptySlot, InvalidMove, EmptyDeck}
    ensures r.current.field[player].Some? && IsShaker(r.current.field[player].value) && r.current.field[victim].Some?
      ==> res.Ok? || res.error == EmptyDeck
    ensures (r.current.field[player].Some? && IsShaker(r.current.field[player].value) && r.current.field[victim].Some? && |r.deck| == 0)
      ==> res == Err(EmptyDeck)
  {
    match r.current.field[player]
    case None => Err(EmptySlot)
    case Some(x) =>
      if !IsShaker(x) then Err(InvalidMove)
      else if r.current.field[victim].None? then Err(InvalidMove)
      else
        var field := r.current.field[player := r.current.field[victim]][victim := None];
        PlayFromDeck(r.(current := r.current.(field := field)), victim)
  }

  /** `Round.handle_giver`: after `verify_giver_ok`, the recipient is credited
      with the trick and leads the next one. */
  function HandleGiver(r: Round, player: Seat, victim: Seat): (res: Result<Round>)
    requires Valid(r)
    ensures res.Ok? <==> GiverMayGive(r.current, player, victim)
    ensures res.Err? ==> res.error == InvalidMove
    ensures res.Ok? ==> res.value == Credit(r, victim)
  {
    match VerifyGiverOk(r.current, player, victim)
    case Fail(e) => Err(e)
    case Pass => Ok(Credit(r, victim))
  }

  // ---------------------------------------------------------------------------
  // Starting a round

  /** All cards held by the four seats. */
  function HeldCards(hands: seq<seq<Card>>): multiset<Card>
    requires |hands| == PlayerCount
  {
    multiset(hands[0]) + multiset(hands[1]) + multiset(hands[2]) + multiset(hands[3])
  }

  /** One pass of the dealing loop: one card from the front of the pile to
      each seat in seat order; fails when the pile runs out. */
  function DealRow(hands: seq<seq<Card>>, pile: seq<Card>): (res: Result<(seq<seq<Card>>, seq<Card>)>)
    requires |hands| == PlayerCount
    ensures res.Ok? <==> |pile| >= PlayerCount
    ensures res.Err? ==> res.error == EmptyDeck
    ensures res.Ok? ==> |res.value.0| == PlayerCount && res.value.1 == pile[PlayerCount..]
    ensures res.Ok? ==> forall q :: 0 <= q < PlayerCount ==> res.value.0[q] == hands[q] + [pile[q]]
  {
    if |pile| < PlayerCount then Err(EmptyDeck)
    else Ok(([hands[0] + [pile[0]], hands[1] + [pile[1]], hands[2] + [pile[2]], hands[3] + [pile[3]]], pile[PlayerCount..]))
  }

  /** A pass of the dealing loop moves cards from the pile to the hands
      without losing or adding any. */
  lemma DealRowKeepsCards(hands: seq<seq<Card>>, pile: seq<Card>)
    requires |hands| == PlayerCount && |pile| >= PlayerCount
    ensures HeldCards(DealRow(hands, pile).value.0) + multiset(DealRow(hands, pile).value.1)
         == HeldCards(hands) + multiset(pile)
  {
    var dealt := DealRow(hands, pile).value.0;
    var top := multiset{pile[0]} + multiset{pile[1]} + multiset{pile[2]} + multiset{pile[3]};
    assert HeldCards(dealt) == HeldCards(hands) + top;
    PileSplit(pile);
  }

  /** The pile is its top four cards and the rest. */
  lemma PileSplit(pile: seq<Card>)
    requires |pile| >= PlayerCount
    ensures multiset(pile)
         == multiset{pile[0]} + multiset{pile[1]} + multiset{pile[2]} + multiset{pile[3]} + multiset(pile[PlayerCount..])
  {
    assert pile == [pile[0]] + [pile[1]] + [pile[2]] + [pile[3]] + pile[PlayerCount..];
  }

  /** The seats' hands after `n` passes of the dealing loop over `deck`:
      card `k` of seat `q` is card `4k + q` of the deck. */
  function Dealt(deck: seq<Card>, n: nat): (hands: seq<seq<Card>>)
    requires 4 * n <= |deck|
    ensures |hands| == PlayerCount
    ensures forall q :: 0 <= q < PlayerCount ==> |hands[q]| == n
  {
    seq(4, q requires 0 <= q < 4 => seq(n, k requires 0 <= k < n => deck[4 * k + q]))
  }

  /** One pass of the loop deals the next four cards of the deck. */
  lemma DealtGrows(deck: seq<Card>, n: nat)
    requires 4 * n + 4 <= |deck|
    ensures DealRow(Dealt(deck, n), deck[4 * n..]) == Ok((Dealt(deck, n + 1), deck[4 * (n + 1)..]))
  {
    var row := DealRow(Dealt(deck, n), deck[4 * n..]).value;
    var next := Dealt(deck, n + 1);
    forall q | 0 <= q < PlayerCount
      ensures row.0[q] == next[q]
    {
      assert row.0[q] == Dealt(deck, n)[q] + [deck[4 * n + q]];
      assert forall k :: 0 <= k < n + 1 ==> row.0[q][k] == next[q][k];
    }
    assert row.0 == next;
    assert row.1 == deck[4 * (n + 1)..];
  }

  /** After any number of passes, the hands and the rest of the deck hold
      exactly the cards of the deck. */
  lemma {:induction false} DealtKeepsCards(deck: seq<Card>, n: nat)
    requires 4 * n <= |deck|
    ensures HeldCards(Dealt(deck, n)) + multiset(deck[4 * n..]) == multiset(deck)
  {
    if n == 0 {
      assert deck[0..] == deck;
      assert Dealt(deck, 0) == [[], [], [], []];
    } else {
      DealtKeepsCards(deck, n - 1);
      DealtGrows(deck, n - 1);
      DealRowKeepsCards(Dealt(deck, n - 1), deck[4 * (n - 1)..]);
    }
  }

  /** The nine passes of the dealing loop of `start_new_round`: one card to
      each seat in seat order, nine times. A pile too short to deal raises. */
  method DealHands(deck: seq<Card>) returns (res: Result<(seq<seq<Card>>, seq<Card>)>)
    ensures res.Ok? <==> |deck| >= 36
    ensures res.Err? ==> res.error == EmptyDeck
    ensures res.Ok? ==> res.value == (Dealt(deck, 9), deck[36..])
  {
    var hands: seq<seq<Card>> := [[], [], [], []];
    var pile := deck;
    var i := 0;
    assert hands == Dealt(deck, 0);
    while i < 9
      invariant 0 <= i <= 9 && 4 * i <= |deck|
      invariant hands == Dealt(deck, i) && pile == deck[4 * i..]
    {
      var row := DealRow(hands, pile);
      if row.Err? {
        return Err(EmptyDeck);
      }
      DealtGrows(deck, i);
      hands, pile := row.value.0, row.value.1;
      i := i + 1;
    }
    res := Ok((hands, pile));
  }

  /** The dealing of `start_new_round` from an already shuffled deck: nine
      rounds of one card to each seat in seat order, then the trump card. A
      deck too short to deal raises. */
  method DealNewRound(deck: seq<Card>) returns (res: Result<Round>)
    ensures res.Ok? <==> |deck| >= 37
    ensures res.Err? ==> res.error == EmptyDeck
    ensures res.Ok? ==> Valid(res.value)
    ensures res.Ok? ==> forall q :: 0 <= q < PlayerCount ==> |res.value.hands[q]| == 9
    ensures res.Ok? ==> forall q, i :: 0 <= q < PlayerCount && 0 <= i < 9 ==>
      res.value.hands[q][i] == deck[4 * i + q]
    ensures res.Ok? ==> res.value.trumpCard == deck[36] && res.value.deck == deck[37..]
    ensures res.Ok? ==> HeldCards(res.value.hands) + multiset{res.value.trumpCard} + multiset(res.value.deck) == multiset(deck)
    ensures res.Ok? ==> res.value.tricksWon == [0, 0, 0, 0] && res.value.current == NewTrick(0)
  {
    var dealt := DealHands(deck);
    if dealt.Err? {
      return Err(EmptyDeck);
    }
    var (hands, pile) := dealt.value;
    var turned := Draw(pile);
    if turned.Err? {
      return Err(EmptyDeck);
    }
    var (trump, rest) := turned.value;
    DealtKeepsCards(deck, 9);
    assert pile == [trump] + rest;
    res := Ok(NewRound(rest, hands, trump));
  }

  /** `start_new_round`: shuffle a new deck (the random draws are a parameter)
      and deal it. Every seat holds nine cards, and the hands, the trump card
      and the remaining 15-card deck together are exactly a new deck. */
  method StartNewRound(rng: seq<nat>) returns (r: Round)
    requires 51 <= |rng|
    requires forall k :: 0 <= k < |rng| ==> rng[k] < 52 - k
    ensures Valid(r)
    ensures forall q :: 0 <= q < PlayerCount ==> |r.hands[q]| == 9
    ensures |r.deck| == 15
    ensures forall c :: (HeldCards(r.hands) + multiset{r.trumpCard} + multiset(r.deck))[c] == ExpectedCopies(c)
    ensures TrumpSuit(r) == r.trumpCard.suit && r.tricksWon == [0, 0, 0, 0] && r.current.curPlayer == 0
  {
    var deck := ShuffleNewDeck(rng);
    var dealt := DealNewRound(deck);
    r := dealt.value;
  }

  // ---------------------------------------------------------------------------
  // Special cards on the field

  /** A Mover played by a seat strictly in the middle of the trick counts
      stays on the field, waiting for `handle_mover`; the turn does not pass. */
  lemma MoverWaits(r: Round, p: Seat, c: Card)
    requires Valid(r) && IsMover(c) && CanMover(r.tricksWon, p)
    ensures PlaceCard(r, p, c) == Ok(WithSlot(r, p, Some(c)))
  {
  }

  /** A replacement drawn from the deck is placed without the hand, turn and
      suit checks; an ordinary one fills the seat's slot, passes the turn and
      sets the lead suit like a played card. */
  lemma OrdinaryReplacement(r: Round, p: Seat)
    requires Valid(r) && |r.deck| > 0 && Ordinary(r.deck[0])
    ensures PlayFromDeck(r, p) == Ok(AfterPlace(WithSlot(r.(deck := r.deck[1..]), p, Some(r.deck[0])), p, r.deck[0]))
  {
  }

  /** Any other Mover is replaced by the top card of the deck, which is played
      without the hand and suit checks. When that card is ordinary, the turn
      passes twice: once for the replacement and once more for the Mover. */
  lemma MoverReplacedAdvancesTwice(r: Round, p: Seat, c: Card)
    requires Valid(r) && IsMover(c) && !CanMover(r.tricksWon, p)
    requires |r.deck| > 0 && Ordinary(r.deck[0])
    ensures PlaceCard(r, p, c).Ok?
    ensures var after := PlaceCard(r, p, c).value;
      && after.current.field == r.current.field[p := Some(r.deck[0])]
      && after.deck == r.deck[1..]
      && after.hands == r.hands
      && after.current.curPlayer == (r.current.curPlayer + 2) % PlayerCount
  {
    var placed := WithSlot(r, p, Some(c));
    var replaced := AfterPlace(WithSlot(placed.(deck := r.deck[1..]), p, Some(r.deck[0])), p, r.deck[0]);
    OrdinaryReplacement(placed, p);
    ReplacedMover(r, p, c, replaced);
    ReplacementOutcome(r, p, c);
  }

  /** Replacing the card `c` at seat `p` by the top of the deck and doing the
      bookkeeping of both: the slot holds the top card, the deck loses it, the
      hands are untouched and the turn passes twice. */
  lemma ReplacementOutcome(r: Round, p: Seat, c: Card)
    requires Valid(r) && |r.deck| > 0
    ensures var top := r.deck[0];
      var placed := WithSlot(r, p, Some(c));
      var after := AfterPlace(AfterPlace(WithSlot(placed.(deck := r.deck[1..]), p, Some(top)), p, top), p, c);
      && after.current.field == r.current.field[p := Some(top)]
      && after.deck == r.deck[1..]
      && after.hands == r.hands
      && after.current.curPlayer == (r.current.curPlayer + 2) % PlayerCount
  {
    var top := r.deck[0];
    var drawn := WithSlot(WithSlot(r, p, Some(c)).(deck := r.deck[1..]), p, Some(top));
    AfterPlaceFrame(drawn, p, top);
    AfterPlaceFrame(AfterPlace(drawn, p, top), p, c);
    assert drawn.current.field == r.current.field[p := Some(top)];
    TwoTurns(r.current.curPlayer);
  }

  /** The Mover branch of `PlaceCard` for a seat that may not use it: the
      Mover's own bookkeeping follows the replacement's. */
  lemma ReplacedMover(r: Round, p: Seat, c: Card, replaced: Round)
    requires Valid(r) && IsMover(c) && !CanMover(r.tricksWon, p)
    requires PlayFromDeck(WithSlot(r, p, Some(c)), p) == Ok(replaced)
    ensures PlaceCard(r, p, c) == Ok(AfterPlace(replaced, p, c))
  {
  }

  /** The Shaker branch of `PlaceCard` when no other slot is filled: the
      Shaker's own bookkeeping follows the replacement's. */
  lemma ReplacedShaker(r: Round, p: Seat, c: Card, replaced: Round)
    requires Valid(r) && IsShaker(c) && FilledCount(WithSlot(r, p, Some(c)).current.field) <= 1
    requires PlayFromDeck(WithSlot(r, p, Some(c)), p) == Ok(replaced)
    ensures PlaceCard(r, p, c) == Ok(AfterPlace(replaced, p, c))
  {
  }

  lemma TwoTurns(x: Seat)
    ensures ((x + 1) % PlayerCount + 1) % PlayerCount == (x + 2) % PlayerCount
  {
  }

  /** A Shaker played while another slot is filled waits for `handle_shaker`. */
  lemma ShakerWaits(r: Round, p: Seat, c: Card, other: Seat)
    requires Valid(r) && IsShaker(c) && other != p && r.current.field[other].Some?
    ensures PlaceCard(r, p, c) == Ok(WithSlot(r, p, Some(c)))
  {
    var field := r.current.field[p := Some(c)];
    if p < other { TwoFilled(field, p, other); } else { TwoFilled(field, other, p); }
  }

  /** A Shaker played onto an otherwise empty field is replaced by the top card
      of the deck; an ordinary replacement passes the turn twice. */
  lemma ShakerFirstReplaced(r: Round, p: Seat, c: Card)
    requires Valid(r) && IsShaker(c)
    requires forall k :: 0 <= k < PlayerCount && k != p ==> r.current.field[k].None?
    requires |r.deck| > 0 && Ordinary(r.deck[0])
    ensures PlaceCard(r, p, c).Ok?
    ensures var after := PlaceCard(r, p, c).value;
      && after.current.field == r.current.field[p := Some(r.deck[0])]
      && after.deck == r.deck[1..]
      && after.current.curPlayer == (r.current.curPlayer + 2) % PlayerCount
  {
    var placed := WithSlot(r, p, Some(c));
    AloneOnField(r.current.field, p, Some(c));
    var replaced := AfterPlace(WithSlot(placed.(deck := r.deck[1..]), p, Some(r.deck[0])), p, r.deck[0]);
    OrdinaryReplacement(placed, p);
    ReplacedShaker(r, p, c, replaced);
    ReplacementOutcome(r, p, c);
  }

  /** A card put into the only slot that may be filled is alone on the field. */
  lemma AloneOnField(field: seq<Option<Card>>, p: nat, slot: Option<Card>)
    requires p < |field|
    requires forall k :: 0 <= k < |field| && k != p ==> field[k].None?
    ensures FilledCount(field[p := slot]) <= 1
  {
    var empty := field[p := None];
    FilledCountMeans(empty);
    FilledCountUpdate(empty, p, slot);
    assert empty[p := slot] == field[p := slot];
  }

  /** `handle_mover` with an ordinary top card, whoever's turn it is: one
      trick moves, the Mover's slot holds the top card, and the turn passes once. */
  lemma MoverResolved(r: Round, player: Seat, source: Seat, dest: Seat)
    requires Valid(r) && r.current.field[player].Some? && IsMover(r.current.field[player].value)
    requires r.tricksWon[source] >= 1 && |r.deck| > 0 && Ordinary(r.deck[0])
    ensures HandleMover(r, player, source, dest).Ok?
    ensures var after := HandleMover(r, player, source, dest).value;
      && after.tricksWon == TransferTrick(r.tricksWon, source, dest).value
      && after.current.field == r.current.field[player := Some(r.deck[0])]
      && after.deck == r.deck[1..] && after.hands == r.hands
      && after.current.curPlayer == (r.current.curPlayer + 1) % PlayerCount
  {
    var moved := r.(tricksWon := TransferTrick(r.tricksWon, source, dest).value);
    OrdinaryReplacement(moved, player);
    AfterPlaceFrame(WithSlot(moved.(deck := r.deck[1..]), player, Some(r.deck[0])), player, r.deck[0]);
  }

  /** `handle_shaker` with an ordinary top card, whoever's turn it is: the
      victim's card moves to the Shaker's slot, the victim's slot holds the top
      card, and the turn passes once. A seat that shakes itself just has its
      Shaker replaced by the top card. */
  lemma ShakerResolved(r: Round, player: Seat, victim: Seat)
    requires Valid(r)
    requires r.current.field[player].Some? && IsShaker(r.current.field[player].value) && r.current.field[victim].Some?
    requires |r.deck| > 0 && Ordinary(r.deck[0])
    ensures HandleShaker(r, player, victim).Ok?
    ensures var after := HandleShaker(r, player, victim).value;
      && after.current.field == r.current.field[player := r.current.field[victim]][victim := Some(r.deck[0])]
      && after.deck == r.deck[1..] && after.hands == r.hands && after.tricksWon == r.tricksWon
      && after.current.curPlayer == (r.current.curPlayer + 1) % PlayerCount
  {
    var field := r.current.field[player := r.current.field[victim]][victim := None];
    var stolen := r.(current := r.current.(field := field));
    OrdinaryReplacement(stolen, victim);
    AfterPlaceFrame(WithSlot(stolen.(deck := r.deck[1..]), victim, Some(r.deck[0])), victim, r.deck[0]);
    assert field[victim := Some(r.deck[0])] == r.current.field[player := r.current.field[victim]][victim := Some(r.deck[0])];
  }

  /** The shake back: when the victim's replacement is itself a Shaker, it
      waits on the field, and the victim may shake the stolen card back; the
      first shaker's seat then draws the next card. */
  lemma ShakeBack(r: Round, p: Seat, v: Seat)
    requires Valid(r) && p != v
    requires r.current.field[p].Some? && IsShaker(r.current.field[p].value) && r.current.field[v].Some?
    requires |r.deck| >= 2 && IsShaker(r.deck[0]) && Ordinary(r.deck[1])
    ensures HandleShaker(r, p, v).Ok?
    ensures var shaken := HandleShaker(r, p, v).value;
      && shaken.current.field[v] == Some(r.deck[0])
      && HandleShaker(shaken, v, p).Ok?
      && var back := HandleShaker(shaken, v, p).value;
         && back.current.field[v] == r.current.field[v]
         && back.current.field[p] == Some(r.deck[1])
         && back.deck == r.deck[2..]
  {
    var field := r.current.field[p := r.current.field[v]][v := None];
    var stolen := r.(current := r.current.(field := field));
    ShakerWaits(stolen.(deck := r.deck[1..]), v, r.deck[0], p);
    var shaken := stolen.(deck := r.deck[1..], current := stolen.current.(field := field[v := Some(r.deck[0])]));
    assert HandleShaker(r, p, v) == Ok(shaken);
    var field2 := shaken.current.field[v := shaken.current.field[p]][p := None];
    var stolenBack := shaken.(current := shaken.current.(field := field2));
    OrdinaryReplacement(stolenBack, p);
    assert HandleShaker(shaken, v, p) == PlayFromDeck(stolenBack, p);
    assert stolenBack.deck[1..] == r.deck[2..];
  }
}

=== FILE: scenarios.dfy ===
/** The rules engine's own test scenarios, restated on the model: the trick
    rankings on the fixture's concrete cards and trump, the special-card
    scenarios on symbolic rounds whose relevant fields are fixed. */
module Scenarios {
  import opened Results
  import opened Cards
  import opened Tricks
  import opened Rounds

  function Plain(v: CardValue, s: Suit): Card {
    Card(v, s, false)
  }

  /** The fixture's trump card. */
  const FixtureTrump: Card := Plain(King, Heart)

  /** A full field under a lead suit, with no Taker or Giver recorded. */
  function Ranked(field: seq<Option<Card>>, lead: Suit): (t: Trick)
    ensures t.field == field && t.recent.None?
  {
    Trick(field, Some(lead), 0, 0, None)
  }

  /** Three spades and a higher club: the highest spade, seat 2, takes the trick. */
  lemma HighestLeadSuitWins(t: Trick)
    requires t == Ranked([Some(Plain(Three, Spade)), Some(Plain(Four, Spade)), Some(Plain(Five, Spade)), Some(Plain(Seven, Club))], Spade)
    ensures ProcessTrickWinner(t, FixtureTrump.suit) == Ok(Some(2))
  {
    WinnerIsLastOfMaxKey(t, FixtureTrump.suit, 2);
  }

  /** On a round, the highest spade's seat is credited and leads the next trick. */
  lemma LeadSuitWinnerCredited(r: Round)
    requires Valid(r) && r.trumpCard == FixtureTrump
    requires r.current.field == [Some(Plain(Three, Spade)), Some(Plain(Four, Spade)), Some(Plain(Five, Spade)), Some(Plain(Seven, Club))]
    requires r.current.leadSuit == Some(Spade) && r.current.recent.None?
    ensures ResolveTrick(r) == Ok(Credit(r, 2))
    ensures ResolveTrick(r).value.current.curPlayer == 2
  {
    WinnerIsLastOfMaxKey(r.current, FixtureTrump.suit, 2);
    assert RightfulWinner(r, 2);
  }

  /** A low trump beats every card of the lead suit. */
  lemma HighestTrumpWins(t: Trick)
    requires t == Ranked([Some(Plain(Seven, Spade)), Some(Plain(Four, Spade)), Some(Plain(Five, Spade)), Some(Plain(Four, Heart))], Spade)
    ensures ProcessTrickWinner(t, FixtureTrump.suit) == Ok(Some(3))
  {
    WinnerIsLastOfMaxKey(t, FixtureTrump.suit, 3);
  }

  /** On a round, the trump's seat is credited and leads the next trick. */
  lemma TrumpWinnerCredited(r: Round)
    requires Valid(r) && r.trumpCard == FixtureTrump
    requires r.current.field == [Some(Plain(Seven, Spade)), Some(Plain(Four, Spade)), Some(Plain(Five, Spade)), Some(Plain(Four, Heart))]
    requires r.current.leadSuit == Some(Spade) && r.current.recent.None?
    ensures ResolveTrick(r) == Ok(Credit(r, 3))
    ensures ResolveTrick(r).value.current.curPlayer == 3
  {
    WinnerIsLastOfMaxKey(r.current, FixtureTrump.suit, 3);
    assert RightfulWinner(r, 3);
  }

  /** Two Takers: the later one, seat 3, wins, is credited and leads next, so
      seat 0 may not play. */
  lemma LastTakerWins(r: Round)
    requires Valid(r) && r.tricksWon == [0, 0, 0, 0]
    requires r.current.field == [Some(SpecialCard(Taker)), Some(Plain(Four, Spade)), Some(Plain(Five, Spade)), Some(SpecialCard(Taker))]
    requires r.current.recent == Some(CardPlayer(SpecialCard(Taker), 3))
    ensures ResolveTrick(r).Ok?
    ensures ResolveTrick(r).value.tricksWon == [0, 0, 0, 1]
    ensures ResolveTrick(r).value.current == NewTrick(3)
    ensures PlayToTrick(ResolveTrick(r).value, 0, Plain(Three, Spade)) == Err(NotYourTurn)
  {
    assert HandComplete(r.current);
    assert ProcessTrickWinner(r.current, TrumpSuit(r)) == Ok(Some(3));
    var next := Credit(r, 3);
    assert ResolveTrick(r) == Ok(next);
    assert next.tricksWon == [0, 0, 0, 1];
  }

  /** A later Giver overrides a Taker: the trick waits; the Giver's player may
      not keep it, but may give it to seat 1, who then leads. */
  lemma LastGiverWins(r: Round)
    requires Valid(r) && r.tricksWon == [0, 0, 0, 0]
    requires r.current.field == [Some(SpecialCard(Taker)), Some(Plain(Four, Spade)), Some(Plain(Five, Spade)), Some(SpecialCard(Giver))]
    requires r.current.recent == Some(CardPlayer(SpecialCard(Giver), 3))
    ensures ResolveTrick(r) == Ok(r)
    ensures HandleGiver(r, 3, 3) == Err(InvalidMove)
    ensures HandleGiver(r, 3, 1).Ok?
    ensures HandleGiver(r, 3, 1).value.tricksWon == [0, 1, 0, 0]
    ensures PlayToTrick(HandleGiver(r, 3, 1).value, 3, Plain(Four, Heart)) == Err(NotYourTurn)
  {
    assert HandComplete(r.current);
    assert ProcessTrickWinner(r.current, TrumpSuit(r)) == Ok(None);
    assert GiverMayGive(r.current, 3, 1);
    var given := Credit(r, 1);
    assert given.tricksWon == [0, 1, 0, 0];
  }

  /** Seat 2's Shaker waits; it may not steal from the empty seat 3, seat 1
      has no Shaker to resolve, and stealing seat 1's card leaves seat 1 with
      the Shaker drawn from the deck. */
  lemma ShakerStealsCard(r: Round)
    requires Valid(r) && r.current.field == [Some(Plain(Three, Heart)), Some(Plain(Four, Heart)), None, None]
    requires |r.deck| > 0 && r.deck[0] == SpecialCard(Shaker)
    ensures PlaceCard(r, 2, SpecialCard(Shaker)).Ok?
    ensures var waiting := PlaceCard(r, 2, SpecialCard(Shaker)).value;
      && HandleShaker(waiting, 2, 3) == Err(InvalidMove)
      && HandleShaker(waiting, 1, 0) == Err(InvalidMove)
      && HandleShaker(waiting, 2, 1).Ok?
      && HandleShaker(waiting, 2, 1).value.current.field
         == [Some(Plain(Three, Heart)), Some(SpecialCard(Shaker)), Some(Plain(Four, Heart)), None]
  {
    ShakerWaits(r, 2, SpecialCard(Shaker), 0);
    var waiting := WithSlot(r, 2, Some(SpecialCard(Shaker)));
    var stolen := waiting.(current := waiting.current.(field := [Some(Plain(Three, Heart)), None, Some(Plain(Four, Heart)), None]));
    assert waiting.current.field[2 := waiting.current.field[1]][1 := None] == stolen.current.field;
    assert HandleShaker(waiting, 2, 1) == PlayFromDeck(stolen, 1);
    ShakerWaits(stolen.(deck := r.deck[1..]), 1, SpecialCard(Shaker), 0);
    var shaken := WithSlot(stolen.(deck := r.deck[1..]), 1, Some(SpecialCard(Shaker)));
    assert PlayFromDeck(stolen, 1) == Ok(shaken);
    assert shaken.current.field == [Some(Plain(Three, Heart)), Some(SpecialCard(Shaker)), Some(Plain(Four, Heart)), None];
  }

  /** A Shaker led onto an empty field draws a Shaker, which draws the five of
      hearts; every card of the chain passes the turn, three times in all. */
  lemma ShakerFirst(r: Round)
    requires Valid(r) && r.current.field == [None, None, None, None] && r.current.curPlayer == 2
    requires r.deck == [SpecialCard(Shaker), Plain(Five, Heart)]
    ensures PlaceCard(r, 2, SpecialCard(Shaker)).Ok?
    ensures PlaceCard(r, 2, SpecialCard(Shaker)).value.current.field == [None, None, Some(Plain(Five, Heart)), None]
    ensures PlaceCard(r, 2, SpecialCard(Shaker)).value.current.curPlayer == 1
    ensures PlaceCard(r, 2, SpecialCard(Shaker)).value.deck == []
  {
    var placed := WithSlot(r, 2, Some(SpecialCard(Shaker)));
    var next := placed.(deck := [Plain(Five, Heart)]);
    ShakerFirstReplaced(next, 2, SpecialCard(Shaker));
    var inner := PlaceCard(next, 2, SpecialCard(Shaker)).value;
    assert placed.deck[1..] == [Plain(Five, Heart)];
    assert PlayFromDeck(placed, 2) == PlaceCard(next, 2, SpecialCard(Shaker));
    FilledCountMeans(r.current.field);
    FilledCountUpdate(r.current.field, 2, Some(SpecialCard(Shaker)));
    ReplacedShaker(r, 2, SpecialCard(Shaker), inner);
    assert inner.current.field == [None, None, Some(Plain(Five, Heart)), None];
    assert inner.current.curPlayer == 0;
    var done := AfterPlace(inner, 2, SpecialCard(Shaker));
    AfterPlaceFrame(inner, 2, SpecialCard(Shaker));
    assert |next.deck[1..]| == 0;
    assert PlaceCard(r, 2, SpecialCard(Shaker)) == Ok(done);
  }

  /** Counts where seat 3 is not strictly in the middle: its Mover is replaced
      by the jack of clubs at once, so there is no Mover left to resolve. */
  lemma MoverWithInvalidCounts(r: Round)
    requires Valid(r) && r.current.field == [None, None, None, None]
    requires r.tricksWon == [0, 0, 0, 1] || r.tricksWon == [1, 1, 1, 0] || r.tricksWon == [1, 1, 2, 2]
    requires |r.deck| > 0 && r.deck[0] == Plain(Jack, Club)
    ensures PlaceCard(r, 3, SpecialCard(Mover)).Ok?
    ensures var after := PlaceCard(r, 3, SpecialCard(Mover)).value;
      && after.current.field == [None, None, None, Some(Plain(Jack, Club))]
      && HandleMover(after, 3, 3, 1) == Err(InvalidMove)
  {
    InvalidCounts();
    MoverReplacedAtLastSeat(r);
  }

  /** Seat 3's Mover, when seat 3 may not use it, is replaced by the jack of clubs. */
  lemma MoverReplacedAtLastSeat(r: Round)
    requires Valid(r) && r.current.field == [None, None, None, None] && !CanMover(r.tricksWon, 3)
    requires |r.deck| > 0 && r.deck[0] == Plain(Jack, Club)
    ensures PlaceCard(r, 3, SpecialCard(Mover)).Ok?
    ensures var after := PlaceCard(r, 3, SpecialCard(Mover)).value;
      && after.current.field == [None, None, None, Some(Plain(Jack, Club))]
      && HandleMover(after, 3, 3, 1) == Err(InvalidMove)
  {
    MoverReplacedAdvancesTwice(r, 3, SpecialCard(Mover));
    assert r.current.field[3 := Some(Plain(Jack, Club))] == [None, None, None, Some(Plain(Jack, Club))];
  }

  /** The three trick counts of the test leave seat 3 at an extreme. */
  lemma InvalidCounts()
    ensures !CanMover([0, 0, 0, 1], 3) && !CanMover([1, 1, 1, 0], 3) && !CanMover([1, 1, 2, 2], 3)
  {
  }

  /** Seat 3 is strictly in the middle of the counts 0, 2, 2, 1, so its Mover waits. */
  lemma MoverWaitsInMiddle(r: Round)
    requires Valid(r) && r.current.field == [None, None, None, None] && r.tricksWon == [0, 2, 2, 1]
    ensures PlaceCard(r, 3, SpecialCard(Mover)) == Ok(WithSlot(r, 3, Some(SpecialCard(Mover))))
    ensures WithSlot(r, 3, Some(SpecialCard(Mover))).current.field == [None, None, None, Some(SpecialCard(Mover))]
  {
    assert CanMover(r.tricksWon, 3);
    MoverWaits(r, 3, SpecialCard(Mover));
  }

  /** With the Mover waiting, a seat without tricks cannot be the source, and
      moving seat 3's own trick to seat 0 replaces the Mover by the jack of clubs. */
  lemma MoverSourceEmpty(w: Round)
    requires Valid(w) && w.current.field == [None, None, None, Some(SpecialCard(Mover))] && w.tricksWon == [0, 2, 2, 1]
    requires |w.deck| > 0 && w.deck[0] == Plain(Jack, Club)
    ensures HandleMover(w, 3, 0, 1) == Err(InvalidMove)
    ensures HandleMover(w, 3, 3, 0).Ok?
    ensures HandleMover(w, 3, 3, 0).value.tricksWon == [1, 2, 2, 0]
    ensures HandleMover(w, 3, 3, 0).value.current.field == [None, None, None, Some(Plain(Jack, Club))]
  {
    var moved := w.(tricksWon := [1, 2, 2, 0]);
    assert TransferTrick(w.tricksWon, 3, 0) == Ok([1, 2, 2, 0]) by {
      assert w.tricksWon[3 := 0][0 := 1] == [1, 2, 2, 0];
    }
    assert HandleMover(w, 3, 3, 0) == PlayFromDeck(moved, 3);
    OrdinaryReplacement(moved, 3);
    var drawn := WithSlot(moved.(deck := moved.deck[1..]), 3, Some(moved.deck[0]));
    AfterPlaceFrame(drawn, 3, moved.deck[0]);
  }
}

=== FILE: tricks.dfy ===
/** One trick of a Lohai round (the `Hand` class of the rules engine): the
    four field slots, the lead suit, whose turn it is, the most recent
    Taker/Giver, completion and the choice of the trick's winner. */
module Tricks {
  import opened Results
  import opened Cards

  /** The engine always seats four players. */
  const PlayerCount: nat := 4

  type Seat = s: int | 0 <= s < 4

  /** A card together with the seat that played it. */
  datatype CardPlayer = CardPlayer(card: Card, player: Seat)

  /** The state of one trick. `field` has one slot per seat; `recent` is the
      most recently played Taker or Giver. */
  datatype Trick = Trick(
    field: seq<Option<Card>>,
    leadSuit: Option<Suit>,
    firstPlayer: Seat,
    curPlayer: Seat,
    recent: Option<CardPlayer>)

  predicate Shaped(t: Trick) {
    |t.field| == PlayerCount
  }

  /** `Hand(round, first_player)`: one empty slot per seat, no lead suit and
      nothing recorded; `first` leads and is the first to play. */
  function NewTrick(first: Seat): (t: Trick)
    ensures Shaped(t) && FilledCount(t.field) == 0 && !HandComplete(t)
    ensures t.firstPlayer == first && t.curPlayer == first
    ensures t.leadSuit.None? && t.recent.None?
  {
    var t := Trick([None, None, None, None], None, first, first, None);
    FilledCountMeans(t.field);
    t
  }

  /** `len(filter(None, field))`: the number of filled slots. */
  function FilledCount(field: seq<Option<Card>>): (n: nat)
    ensures n <= |field|
  {
    if field == [] then 0
    else (if field[0].Some? then 1 else 0) + FilledCount(field[1..])
  }

  /** No slot is filled exactly when the count is zero, and every slot exactly
      when it is the field's length. */
  lemma {:induction false} FilledCountMeans(field: seq<Option<Card>>)
    ensures FilledCount(field) == 0 <==> forall k :: 0 <= k < |field| ==> field[k].None?
    ensures FilledCount(field) == |field| <==> forall k :: 0 <= k < |field| ==> field[k].Some?
  {
    if field != [] {
      FilledCountMeans(field[1..]);
      assert forall k :: 1 <= k < |field| ==> field[k] == field[1..][k - 1];
    }
  }

  /** `c in field`, compared with card equality. */
  predicate OnField(field: seq<Option<Card>>, c: Card) {
    exists k :: 0 <= k < |field| && Equals(c, field[k])
  }

  /** `hand_complete`: no empty slot, and no slot equal to a special Shaker or
      Mover, i.e. none waiting for its player's input. */
  predicate HandComplete(t: Trick) {
    && None !in t.field
    && !OnField(t.field, SpecialCard(Shaker))
    && !OnField(t.field, SpecialCard(Mover))
  }

  /** A slot that blocks completion: empty, or holding a suitless Shaker or Mover. */
  predicate Blocking(slot: Option<Card>) {
    slot.None? || (slot.value.suit == NoSuit && slot.value.value in {Shaker, Mover})
  }

  /** A trick is complete exactly when no slot blocks it. */
  lemma HandCompleteMeansNothingBlocks(t: Trick)
    ensures HandComplete(t) <==> forall k :: 0 <= k < |t.field| ==> !Blocking(t.field[k])
  {
    if !HandComplete(t) {
      if None in t.field {
        var k :| 0 <= k < |t.field| && t.field[k] == None;
        assert Blocking(t.field[k]);
      }
    }
  }

  /** The rank boost of `_card_key`: trump beats lead, lead beats the rest. */
  function Tier(c: Card, trump: Suit, lead: Option<Suit>): nat {
    if c.suit == trump then 2 else if lead == Some(c.suit) then 1 else 0
  }

  /** `_card_key`: the card value plus 200 for trump or 100 for the lead suit. */
  function CardKey(c: Card, trump: Suit, lead: Option<Suit>): int {
    var v := ValueCode(c.value);
    if c.suit == trump then v + 200
    else if lead == Some(c.suit) then v + 100
    else v
  }

  /** Keys compare by tier first and card value second: any trump card beats
      any lead-suit card, which beats any other card. */
  lemma KeyIsTierThenValue(a: Card, b: Card, trump: Suit, lead: Option<Suit>)
    ensures CardKey(a, trump, lead) < CardKey(b, trump, lead) <==>
      Tier(a, trump, lead) < Tier(b, trump, lead)
      || (Tier(a, trump, lead) == Tier(b, trump, lead) && ValueCode(a.value) < ValueCode(b.value))
  {
  }

  predicate AllFilled(field: seq<Option<Card>>) {
    forall k :: 0 <= k < |field| ==> field[k].Some?
  }

  /** The keys of a full field, slot by slot. */
  function Keys(field: seq<Option<Card>>, trump: Suit, lead: Option<Suit>): (keys: seq<int>)
    requires AllFilled(field)
    ensures |keys| == |field|
    ensures forall k :: 0 <= k < |field| ==> keys[k] == CardKey(field[k].value, trump, lead)
  {
    seq(|field|, k requires 0 <= k < |field| => CardKey(field[k].value, trump, lead))
  }

  /** The position whose element a stable ascending sort puts last: the last
      occurrence of the maximal key. */
  function LastMax(keys: seq<int>): (i: nat)
    requires |keys| > 0
    ensures i < |keys|
    ensures forall k :: 0 <= k < |keys| ==> keys[k] <= keys[i]
    ensures forall k :: i < k < |keys| ==> keys[k] < keys[i]
  {
    if |keys| == 1 then 0
    else
      var j := LastMax(keys[..|keys| - 1]);
      if keys[|keys| - 1] >= keys[j] then |keys| - 1 else j
  }

  /** `field.index(c)`: the first slot holding a card equal to `c`. */
  function IndexOf(field: seq<Option<Card>>, c: Card): (i: nat)
    requires OnField(field, c)
    ensures i < |field| && Equals(c, field[i])
    ensures forall k :: 0 <= k < i ==> !Equals(c, field[k])
  {
    if Equals(c, field[0]) then 0
    else
      assert OnField(field[1..], c) by {
        var k :| 0 <= k < |field| && Equals(c, field[k]);
        assert k > 0 && Equals(c, field[1..][k - 1]);
      }
      1 + IndexOf(field[1..], c)
  }

  /** The slot whose card a stable ascending sort by key puts last: its key is
      maximal, and every later slot has a smaller key. */
  predicate LastOfMaxKey(field: seq<Option<Card>>, trump: Suit, lead: Option<Suit>, j: int)
    requires AllFilled(field)
  {
    && 0 <= j < |field|
    && (forall k :: 0 <= k < |field| ==> CardKey(field[k].value, trump, lead) <= CardKey(field[j].value, trump, lead))
    && (forall k :: j < k < |field| ==> CardKey(field[k].value, trump, lead) < CardKey(field[j].value, trump, lead))
  }

  /** The seat the ranking names: the first slot holding a card equal to the
      card in the last slot of maximal key. */
  predicate TieBreakWinner(field: seq<Option<Card>>, trump: Suit, lead: Option<Suit>, w: int)
    requires AllFilled(field)
  {
    && 0 <= w < |field|
    && exists j :: 0 <= j < |field| && LastOfMaxKey(field, trump, lead, j)
         && Same(field[w].value, field[j].value)
         && forall k :: 0 <= k < w ==> !Same(field[k].value, field[j].value)
  }

  /** Only one slot is the last of maximal key. */
  lemma LastOfMaxKeyUnique(field: seq<Option<Card>>, trump: Suit, lead: Option<Suit>, j1: int, j2: int)
    requires AllFilled(field)
    requires LastOfMaxKey(field, trump, lead, j1) && LastOfMaxKey(field, trump, lead, j2)
    ensures j1 == j2
  {
    assert CardKey(field[j1].value, trump, lead) == CardKey(field[j2].value, trump, lead);
  }

  /** The ranking names at most one seat. */
  lemma TieBreakWinnerUnique(field: seq<Option<Card>>, trump: Suit, lead: Option<Suit>, w1: int, w2: int)
    requires AllFilled(field)
    ensures TieBreakWinner(field, trump, lead, w1) && TieBreakWinner(field, trump, lead, w2) ==> w1 == w2
  {
    if TieBreakWinner(field, trump, lead, w1) && TieBreakWinner(field, trump, lead, w2) {
      var j1 :| 0 <= j1 < |field| && LastOfMaxKey(field, trump, lead, j1) && Same(field[w1].value, field[j1].value)
        && forall k :: 0 <= k < w1 ==> !Same(field[k].value, field[j1].value);
      var j2 :| 0 <= j2 < |field| && LastOfMaxKey(field, trump, lead, j2) && Same(field[w2].value, field[j2].value)
        && forall k :: 0 <= k < w2 ==> !Same(field[k].value, field[j2].value);
      LastOfMaxKeyUnique(field, trump, lead, j1, j2);
      assert Same(field[w1].value, field[j1].value) && Same(field[w2].value, field[j1].value);
    }
  }

  /** On a field of pairwise different cards, a tie in key goes to the later seat. */
  lemma TieGoesToLaterSeat(field: seq<Option<Card>>, trump: Suit, lead: Option<Suit>, w: int)
    requires AllFilled(field)
    requires forall a, b :: 0 <= a < b < |field| ==> !Same(field[a].value, field[b].value)
    ensures TieBreakWinner(field, trump, lead, w) <==> LastOfMaxKey(field, trump, lead, w)
  {
    if TieBreakWinner(field, trump, lead, w) {
      var j :| 0 <= j < |field| && LastOfMaxKey(field, trump, lead, j) && Same(field[w].value, field[j].value)
        && forall k :: 0 <= k < w ==> !Same(field[k].value, field[j].value);
      assert Same(field[w].value, field[j].value);
    }
    if LastOfMaxKey(field, trump, lead, w) {
      assert Same(field[w].value, field[w].value);
    }
  }

  /** The ranked winner of a full field: the seat of the first card equal to
      the card a stable sort by key puts last. */
  function RankedWinner(field: seq<Option<Card>>, trump: Suit, lead: Option<Suit>): (w: Seat)
    requires |field| == PlayerCount && AllFilled(field)
    ensures TieBreakWinner(field, trump, lead, w)
    ensures forall k :: 0 <= k < PlayerCount ==>
      CardKey(field[k].value, trump, lead) <= CardKey(field[w].value, trump, lead)
  {
    var keys := Keys(field, trump, lead);
    var j := LastMax(keys);
    var winCard := field[j].value;
    assert OnField(field, winCard) by { assert Equals(winCard, field[j]); }
    var w := IndexOf(field, winCard);
    assert LastOfMaxKey(field, trump, lead, j);
    assert forall k :: 0 <= k < w ==> !Same(field[k].value, field[j].value) by {
      forall k | 0 <= k < w ensures !Same(field[k].value, field[j].value) {
        assert !Equals(winCard, field[k]);
      }
    }
    w
  }

  /** `process_trick_winner`. The most recent Taker or Giver overrides the
      ranking: a Taker's seat wins outright, a Giver leaves the winner open
      (None) until its player names a recipient. Without one, the seat with the
      maximal key wins. Any other recorded card is an internal fault. */
  function ProcessTrickWinner(t: Trick, trump: Suit): (r: Result<Option<Seat>>)
    requires Shaped(t) && AllFilled(t.field)
    ensures r.Err? <==> t.recent.Some? && !IsTaker(t.recent.value.card) && !IsGiver(t.recent.value.card)
    ensures r.Err? ==> r.error == Inconsistent
    ensures t.recent.Some? && IsTaker(t.recent.value.card) ==> r == Ok(Some(t.recent.value.player))
    ensures t.recent.Some? && IsGiver(t.recent.value.card) ==> r == Ok(None)
    ensures t.recent.None? ==> r.Ok? && r.value.Some?
    ensures t.recent.None? ==> TieBreakWinner(t.field, trump, t.leadSuit, r.value.value)
    ensures t.recent.None? ==> forall k :: 0 <= k < PlayerCount ==>
      CardKey(t.field[k].value, trump, t.leadSuit) <= CardKey(t.field[r.value.value].value, trump, t.leadSuit)
  {
    match t.recent
    case Some(cp) =>
      if IsTaker(cp.card) then Ok(Some(cp.player))
      else if IsGiver(cp.card) then Ok(None)
      else Err(Inconsistent)
    case None =>
      Ok(Some(RankedWinner(t.field, trump, t.leadSuit)))
  }

  /** With no Taker or Giver recorded, the last slot of maximal key wins when
      no earlier slot holds an equal card. */
  lemma WinnerIsLastOfMaxKey(t: Trick, trump: Suit, j: Seat)
    requires Shaped(t) && AllFilled(t.field) && t.recent.None?
    requires LastOfMaxKey(t.field, trump, t.leadSuit, j)
    requires forall k :: 0 <= k < j ==> !Same(t.field[k].value, t.field[j].value)
    ensures ProcessTrickWinner(t, trump) == Ok(Some(j))
  {
    var w := ProcessTrickWinner(t, trump).value.value;
    assert TieBreakWinner(t.field, trump, t.leadSuit, j);
    TieBreakWinnerUnique(t.field, trump, t.leadSuit, w, j);
  }

  /** The conditions `verify_giver_ok` demands of a Giver's player naming a recipient. */
  predicate GiverMayGive(t: Trick, player: Seat, victim: Seat) {
    && HandComplete(t)
    && t.recent.Some?
    && t.recent.value.player == player
    && IsGiver(t.recent.value.card)
    && player != victim
  }

  /** `verify_giver_ok`: every refusal is an InvalidMove. */
  function VerifyGiverOk(t: Trick, player: Seat, victim: Seat): (r: Check)
    ensures r.Pass? <==> GiverMayGive(t, player, victim)
    ensures r.Fail? ==> r.error == InvalidMove
  {
    if !HandComplete(t) then Fail(InvalidMove)
    else if t.recent.None? then Fail(InvalidMove)
    else if t.recent.value.player != player then Fail(InvalidMove)
    else if t.recent.value.card.value != Giver then Fail(InvalidMove)
    else if player == victim then Fail(InvalidMove)
    else Pass
  }

  /** Filling or emptying one slot moves the count by at most one, as expected. */
  lemma {:induction false} FilledCountUpdate(field: seq<Option<Card>>, i: nat, slot: Option<Card>)
    requires i < |field|
    ensures FilledCount(field[i := slot]) + (if field[i].Some? then 1 else 0)
         == FilledCount(field) + (if slot.Some? then 1 else 0)
  {
    if i > 0 {
      FilledCountUpdate(field[1..], i - 1, slot);
      assert field[i := slot][1..] == field[1..][i - 1 := slot];
    }
  }

  /** Two distinct filled slots make a count of at least two. */
  lemma {:induction false} TwoFilled(field: seq<Option<Card>>, i: nat, j: nat)
    requires i < j < |field| && field[i].Some? && field[j].Some?
    ensures FilledCount(field) >= 2
  {
    if i > 0 {
      TwoFilled(field[1..], i - 1, j - 1);
    } else {
      FilledCountMeans(field[1..]);
      assert field[1..][j - 1].Some?;
    }
  }
}
